=== FILE: README.md ===
# dragmate in Dafny

A model of `dragmate`, a small browser library that lets the elements of a page
be dragged and dropped onto other elements. A page creates a `dragmate`
controller, registers draggable and droppable elements by `.class` or `#id`
selector, by element reference or by an array of either, assigns optional
callbacks (`ondragstart`, `ondragmove`, `ondrop`, `ondragend`, `onlongtouch`),
and the controller does the rest:

- a primary-button mouse press or a touch on a draggable element opens a drag
  session: the press position and the element's origin are recorded, a hidden
  fixed-position copy of the element (the proxy) is put in the body, the
  document's move and release listeners are set for that kind of input, and a
  500 ms long-touch timer is armed;
- each move cancels the long touch, fires `ondragstart` on the first move of the
  session only, moves the proxy by the pointer's displacement, optionally
  hit-tests the droppable elements (painting the hovered one with the "on"
  border and the others with the "off" border) and fires `ondragmove`;
- the release records the end point, resolves the droppable element under it
  (unless monitoring is on, in which case the last hit-test's result stands), clears every hover border, detaches the
  listeners, removes the proxy, and only then fires `ondrop` (when a droppable
  element was resolved) and `ondragend`;
- the long-touch timer fires `onlongtouch` for a touch press when no move or
  release cancelled it.

The modules:

- `Dom` — element handles, rectangles, pointer events, and the two document
  lookups (`getElementsByClassName` and `getElementById`) as maps.
- `Geometry` — the closed-interval containment test and the proxy position.
- `HitTest` — the scan of `overDropItem` (a loop proved to find the lowest
  containing index) and the border sweep of `overDropEffect`.
- `Registry` — selector resolution (`el`), `incDragDropItem`, and the array
  handling of `setDraggable` and `setDroppable`. It also holds as-written
  versions of these for the findings below.
- `Styles` — the name and value conversion of `applyStyles`.
- `Machine` — the controller and the parts of the document it touches, as one
  value, with one transition function per handler.
- `Controller` — class `Dragmate`, whose fields the handlers update step by
  step. Each handler method and its helpers is proved to move the object (seen
  through `Snapshot()`) exactly as the corresponding `Machine` function does,
  and to leave the set of elements carrying press listeners unchanged. The
  registration methods (`SetDraggable`, `SetDroppable`, `RegisterDraggable`)
  have no `Machine` counterpart: their contracts state the new collections and
  flags directly, in terms of `Registry`, and `SetDraggable` and
  `RegisterDraggable` add the draggable elements to the listener set.
  `TouchLongpress` has no `Machine` counterpart either: its contract states
  directly which callback it invokes and that nothing else changes.
- `Sessions` — properties of arbitrary runs of presses, moves, releases and
  timer expiries: the invariant every handler keeps, one drag at a time, one
  `ondragstart` per session, the long-touch condition, and worked scenarios.

Modelling choices:

- Coordinates are integers. The element layout (`getBoundingClientRect`) is a
  function from elements to rectangles, passed to each handler.
- Callbacks are a log of invocations, each with the arguments it received.
  `ondrop` and `ondragend` also record what they could observe of the session
  when they ran (the `dropActive` flag, the listener slots and whether the
  proxy is in the body). Handlers record only whether each callback is set.
- The document's four listener slots are one value: the kind of input they are
  set for, or none.
- Timers are a queue of armed timers, each with the press event it captured.
  Expiry of timer `k` is an input, so any interleaving of timers and events can
  be expressed.
- A press reaches `gotDraggable` only through a listener that `registerDraggable`
  put on a draggable element. The class tracks those elements in a ghost set.
  The pure model takes the press as given, with the event's target being
  whatever element was under the pointer.

## Model

| member | source | states |
|---|---|---|
| Controller.Dragmate.constructor | dragmate.js:12-122 | A new controller has empty collections, both flags false, no callbacks, monitoring off, the default on/off borders, no drag, and no element carrying its listeners. |
| Machine.Initial | dragmate.js:12-122 | The constructed controller satisfies the controller invariant, has no active drag and has invoked no callback. |
| Registry.El | dragmate.js:188-217 | An unrecognised selector (first character neither `.` nor `#`) gives false. Otherwise the result is the matched elements in reverse document order; an id yields at most one element. |
| Registry.IncDragDropItem | dragmate.js:171-182 | Appends exactly the elements the entry denotes, in document order (the two reversals cancel), and reports whether it added any; success implies an element reference or a recognised selector. |
| Registry.IncEach | dragmate.js:135-139 | Walking an array from its last entry down appends each entry's elements in turn. The flag ends as whether the first entry, processed last, added an element, or unchanged for an empty array. |
| Registry.AppendedMembers | dragmate.js:135-139 | An element is added by an array exactly when some entry of the array denotes it. |
| Controller.Dragmate.SetDraggable | dragmate.js:133-147 | The draggable collection grows by exactly the denoted elements, and the flag tells whether the entry processed last added an element. When the flag is set, every draggable element, old and new, carries the press listeners. Nothing else changes. |
| Controller.Dragmate.RegisterDraggable | dragmate.js:223-229 | After the loop, every element of the draggable collection carries the press listeners; the controller is otherwise unchanged. |
| Controller.Dragmate.SetDroppable | dragmate.js:154-164 | The droppable collection grows by exactly the elements denoted by a string or an array (a lone element reference adds nothing). The flag tells whether the entry processed last added an element. Nothing else changes. |
| Geometry.EdgesInclusive | dragmate.js:324-325 | All four corners of a rectangle count as inside; one unit beyond any edge is outside. |
| Geometry.ProxyPosition | dragmate.js:235-245 | The proxy keeps the offset between pointer and element established at the press, and sits on the element's origin when the pointer is back at the press point. |
| HitTest.HitFrom | dragmate.js:319-329 | The result is the lowest index at or after the start whose rectangle contains the point, or -1 when none does. |
| HitTest.FirstHit | dragmate.js:316-329 | The index found contains the point and no lower index does; -1 exactly when no droppable item contains the point. |
| HitTest.FindDropIndex | dragmate.js:316-329 | The downward `while (l--)` scan, where each containing item overwrites the index, ends on the lowest containing index. |
| HitTest.DropTarget | dragmate.js:331-337 | No element (`false`) exactly when no item contains the point; otherwise the element at the lowest containing index. |
| HitTest.FirstAt | dragmate.js:344-353 | The position returned holds the element and no earlier position from the start does. |
| HitTest.PaintedBorders | dragmate.js:344-353 | After the sweep, each droppable item has the on border exactly when its first position is the given index, and the off border otherwise. Elements outside the collection keep their border. |
| HitTest.AllOff | dragmate.js:404-405 | `overDropEffect(-1)` gives every droppable item the off border. |
| HitTest.FeedbackMarksWinner | dragmate.js:316-353 | After the hit-test, exactly the element found under the pointer carries the on border and every other droppable item the off border, even when an element is registered twice. |
| Machine.ArmLongTouch | dragmate.js:539-547 | The long touch is re-armed: `ltCnl` is false and one timer carrying the press event and the 500 ms delay is queued after the existing ones. Nothing else in the session, the settings, the page, the expired timers or the log changes. |
| Machine.RecordStart | dragmate.js:549-565 | The press point is recorded and the document listens for this kind of input (one more listener pair attached). Settings, timers and callbacks are unchanged. |
| Machine.TrackDrag | dragmate.js:253-305 | After any move the long touch is cancelled and the drag counts as started. A move changes no setting, timer or timer run, and only appends callbacks. See `Machine.MoveOutcome` for the full outcome. |
| Machine.OverDropEffect | dragmate.js:344-353 | Only the border styles change. What the sweep writes is stated by `HitTest.PaintedBorders`. |
| HitTest.Painted | dragmate.js:344-353 | The sweep never removes an element's border style. What it writes is stated by `HitTest.PaintedBorders`. |
| Machine.Teardown | dragmate.js:407-415 | Afterwards a callback sees the drag inactive, the listener slots empty and the proxy out of the body. The drag and drop records, settings, timers and callbacks are unchanged, and so are the counts of proxies created and listener pairs attached. |
| Machine.Step | dragmate.js:522-576 | No input changes the settings, forgets a callback already invoked, disarms a timer or un-runs one. |
| Machine.Run | dragmate.js:522-576 | Over any run the settings stay as they are, and the callbacks invoked, the timers armed and the timers run only grow. |
| Registry.Classify | dragmate.js:189-201 | A class selector is `.` followed by the name it yields, and an id selector is `#` followed by its name. A selector is unrecognised exactly when it is empty or starts with neither character. |
| Registry.DroppableArg | dragmate.js:154-164 | A lone element reference passed to `setDroppable` is treated as an empty array. A string or an array is taken as it is. |
| Registry.IncAsWritten | dragmate.js:171-182 | As written, a whole array is pushed as one value, and an element reference is pushed as itself. Whenever the call does not fail or throw, it pushes at least one value, though not always an element. |
| Machine.ReadPoint | dragmate.js:272-284 | A position is read exactly when both coordinates are non-zero. |
| Machine.OverDropItem | dragmate.js:316-338 | Only the borders and `drop.dropElem` change, and `drop.dropElem` becomes the drop target of the pointer. |
| Machine.OverDropItemFeedback | dragmate.js:316-338 | After `overDropItem`, the recorded drop element alone carries the on border among the droppable items. |
| Machine.CreateDragElem | dragmate.js:482-516 | The drag record takes the source element's left and top as its origin, and a new hidden proxy with no position is put in the body (one more created). Settings, session flags, timers and callbacks are unchanged. |
| Machine.DragDraggable | dragmate.js:235-246 | Only the proxy changes. It is shown, and it is placed at the element's origin moved by the pointer's displacement when the position was read, or keeps its place otherwise. |
| Machine.Press | dragmate.js:522-576 | A press during an active drag, or with a non-primary mouse button, changes nothing. Otherwise it clears `ltCnl`, records the press point, the target and its origin, sets the listeners for the input kind, creates one hidden proxy, arms one 500 ms timer with the event, and marks the drag active. The drop record, the drag-start flag, the settings and the callbacks are untouched. |
| Machine.StartDrag | dragmate.js:263-270 | Every move cancels the long touch and marks the drag started. `ondragstart` is invoked only when the drag had not started and the callback is set. |
| Machine.MonitorDrop | dragmate.js:293-295 | The hit-test runs exactly when droppable items are set and monitoring is on. It then records the target under the pointer and paints the hover borders as `overDropItem` does; otherwise nothing changes. |
| Machine.MoveOutcome | dragmate.js:253-305 | A move invokes `ondragstart` only on the first move of the drag and then `ondragmove` with the updated records. The proxy is shown and placed at `ProxyPosition` of the pointer when both coordinates are non-zero, and keeps its place otherwise. It changes no setting, timer or listener. The drop record and the borders change only through the monitored hit-test: the drop target becomes the element under the pointer, the end point is kept, and that element alone among the droppable items carries the on border. |
| Machine.Move | dragmate.js:556-564 | A move whose kind the document is not listening for changes nothing. |
| Machine.RecordEnd | dragmate.js:374-393 | The release cancels the long touch, resets the drag-start flag and records the end point only when both coordinates are non-zero. |
| Machine.ResolveDrop | dragmate.js:395-402 | Without monitoring, the target is looked up at the recorded end point; with monitoring, the last move's target is kept. |
| Machine.DropCallbacks | dragmate.js:417-427 | `ondrop` is invoked only when a droppable element was resolved, and then `ondragend`, each with the final records. |
| Machine.DropDraggable | dragmate.js:362-428 | A mouseup of a non-primary button changes nothing. No release changes the settings or the timers, or drops a callback already invoked. |
| Machine.ReleaseOutcome | dragmate.js:362-428 | An accepted release records the end point, resolves the target, detaches the listeners, removes the proxy and ends the drag. `ondrop` (when a target was resolved) and `ondragend` are invoked with the final records, and both see the drag inactive, the listener slots empty and the proxy out of the body. Settings and timers are unchanged. |
| Machine.ReleaseClearsFeedback | dragmate.js:404-405 | After an accepted release no droppable item shows the hover border. |
| Machine.Release | dragmate.js:557-564 | A release whose kind the document is not listening for changes nothing. |
| Machine.TimerExpire | dragmate.js:540-547 | A timer runs at most once. It invokes `onlongtouch` with its press event and `false` exactly when `ltCnl` is still false, the press was a touch and the callback is set. |
| Sessions.PressValid | dragmate.js:522-576 | A press keeps the controller invariant. |
| Sessions.MoveValid | dragmate.js:253-305 | A move keeps the controller invariant. |
| Sessions.ReleaseValid | dragmate.js:362-428 | A release keeps the controller invariant. |
| Sessions.ExpireValid | dragmate.js:540-547 | A timer expiry keeps the controller invariant. |
| Sessions.StepValid | dragmate.js:522-576 | Every input keeps the controller invariant. |
| Sessions.RunValid | dragmate.js:522-576 | Every run of inputs keeps the invariant. A drag is active exactly while its listeners are set and its proxy is in the body; every earlier proxy and listener pair has been removed; `ondragstart` fires at most once per session. |
| Sessions.CallbacksPerSession | dragmate.js:405-427 | From a new controller: `ondragstart` is invoked at most once per proxy created, `ondrop` and `ondragend` at most once per proxy removed, and every `ondrop` and `ondragend` ran after its session was torn down. Every proxy and listener pair but the active session's has been removed. |
| Sessions.RepeatedPresses | dragmate.js:525-528 | A burst of presses opens at most one session, and none when a drag is active. |
| Sessions.QuietKeepsTimers | dragmate.js:540-547 | Without a press the settings and timers stay the same, and a timer that was not expired stays pending. |
| Sessions.StaysCancelled | dragmate.js:260-263 | Once cancelled, the long touch stays cancelled until the next press. |
| Sessions.CancelledIff | dragmate.js:260-263 | While the touch listeners are set, the long touch ends up cancelled exactly when some touch move or touch release arrives. |
| Sessions.LongTouchIff | dragmate.js:540-547 | After a touch press, and provided no later press came before its timer expired, the timer invokes `onlongtouch` with the press event and `false` exactly when no touch move or release came first. A later press can reset `ltCnl` and let the timer fire anyway (`Sessions.StaleTimerFires`). |
| Sessions.MousePressNoLongTouch | dragmate.js:584-592 | A mouse press's timer never invokes `onlongtouch`, whatever inputs come before it expires, later presses included. |
| Sessions.SessionStep | dragmate.js:264-270 | Within a session, a delivered move invokes `ondragstart` only if the drag had not started, and leaves it started. A timer invokes no `ondragstart`. Neither changes the listeners. |
| Sessions.DragStartOnce | dragmate.js:264-270 | Over any sequence of moves and timers, `ondragstart` fires exactly once if the drag had not started and some move was delivered, and never otherwise. |
| Sessions.DropOnTarget | dragmate.js:362-427 | Press (10,10) on a 50x50 element at the origin, move to (60,60), release there over a droppable item at (40,40): the proxy sits at (50,50), the item is resolved, `ondrop` then `ondragend` fire, and the session is torn down. |
| Sessions.DropOutside | dragmate.js:417-427 | The same drag released at (200,200), outside the item: no target, no `ondrop`, `ondragend` still fires. |
| Sessions.StaleTimerFires | dragmate.js:540-547 | A touch press released early, then a second stationary touch press: the first press's timer invokes `onlongtouch` with the first event. |
| Sessions.StaleDropReported | dragmate.js:395-402 | With monitoring on, a click without a move reports the previous drag's target to `ondrop`. |
| Controller.Dragmate.OverDropEffect | dragmate.js:344-353 | The top-down sweep over the droppable items leaves the borders as `Machine.OverDropEffect` does. |
| Controller.Dragmate.OverDropItem | dragmate.js:316-338 | Scan, feedback and drop record as `Machine.OverDropItem`; returns the recorded element. |
| Controller.Dragmate.CreateDragElem | dragmate.js:482-516 | Matches `Machine.CreateDragElem`. |
| Controller.Dragmate.DragDraggable | dragmate.js:235-246 | Matches `Machine.DragDraggable`. |
| Controller.Dragmate.GotDraggable | dragmate.js:522-576 | Moves the controller exactly as `Machine.Press`. |
| Controller.Dragmate.ArmLongTouch | dragmate.js:539-547 | Clears `ltCnl` and queues one timer with the literal delay. |
| Controller.Dragmate.RecordStart | dragmate.js:549-565 | Records the press point and sets the listeners for the input kind. |
| Controller.Dragmate.TrackDrag | dragmate.js:253-305 | Moves the controller exactly as `Machine.TrackDrag`; see `Machine.MoveOutcome`. |
| Controller.Dragmate.StartDrag | dragmate.js:263-270 | Matches `Machine.StartDrag`. |
| Controller.Dragmate.DropDraggable | dragmate.js:362-428 | Moves the controller exactly as `Machine.DropDraggable`; see `Machine.ReleaseOutcome`. |
| Controller.Dragmate.RecordEnd | dragmate.js:374-393 | Matches `Machine.RecordEnd`. |
| Controller.Dragmate.Teardown | dragmate.js:407-415 | Listeners detached, proxy removed, drag inactive. |
| Controller.Dragmate.DropCallbacks | dragmate.js:417-427 | Matches `Machine.DropCallbacks`. |
| Controller.Dragmate.PointerMove | dragmate.js:556-563 | Matches `Machine.Move`: the move reaches `trackDrag` only through the slot set for its kind. |
| Controller.Dragmate.PointerUp | dragmate.js:557-564 | Matches `Machine.Release`. |
| Controller.Dragmate.TimerExpire | dragmate.js:540-547 | Matches `Machine.TimerExpire`. |
| Controller.Dragmate.TouchLongpress | dragmate.js:584-592 | `onlongtouch` is invoked, with the event and `ltCnl`, only for a touch event; nothing else changes. |
| Styles.BeforeHyphen | dragmate.js:460-461 | The first part of `split("-")` is a hyphen-free prefix, ended by a hyphen or the end of the name. |
| Styles.StyleName | dragmate.js:458-467 | A name without a hyphen is used unchanged. |
| Styles.StyleNameOfPair | dragmate.js:458-464 | `a-b` becomes `a` followed by `b` with an upper-case initial ("font-size" becomes "fontSize"). |
| Styles.StyleNameRoundTrip | dragmate.js:458-467 | For two lower-case words, reading the camel-cased name back in hyphenated form gives the original property. |
| Styles.CopiedNamesRoundTrip | dragmate.js:441-454 | The conversion loses nothing for each of the twelve properties copied to the proxy. |
| Styles.StyleValue | dragmate.js:468-470 | An empty computed value becomes "none"; any other value is copied unchanged. |
| Registry.ElAsWritten | dragmate.js:188-217 | `el` as written: false for an unrecognised selector, a TypeError for an unmatched id, and the reversed matches otherwise when there are any. Whenever it returns an array, that array holds at least one value. |
| Registry.UnmatchedClassPushesCollection | dragmate.js:206-215 | As written, a class selector matching nothing pushes the empty collection itself. |
| Registry.UnmatchedIdThrows | dragmate.js:197-206 | As written, an id selector matching nothing throws. |
| Registry.DraggableCallsAsWritten | dragmate.js:133-142 | `setDraggable` as written: one entry is handed over as it is; an array with a truthy first entry is handed over entry by entry, from the last entry to the first; any other array (empty, or starting with "") is handed over whole, as one argument. |
| Registry.ArrayWithFalsyHeadPushed | dragmate.js:135-141 | As written, `setDraggable([])` and an array starting with "" hand the whole array to `incDragDropItem`, which pushes it. |

## Left out

- The lookups of common.js (`$cls`, `$id`, `$getStyle`) are not part of this model. Class and id lookup are maps in `Dom.Document` that stand for `getElementsByClassName` (document order) and `getElementById` only. The fallback of `$cls` for browsers without `getElementsByClassName` is not modelled. That fallback matches class names by substring and returns elements in reverse document order.
- Copying the computed styles into the proxy (`cloneNode`, `$getStyle`, the child walk, `n.style[name] = …`) is not modelled beyond the name and value conversion. The proxy is modelled by its display, top and left.
- `stopPropagation`, `preventDefault` and the `window.event` fallback are left out.
- `drag.dragID` (the source element's id, set at each press) and the `drag.visElem` reference are dropped from `Machine.Drag`. Callbacks therefore receive the drag record without them.
- Which element's press listener fired is left out. A press on a descendant of a draggable element bubbles to it; the model accepts any target.
- Real timers and the clock are left out. Expiry is an input, and the 500 ms delay is recorded, not enforced.
- `parseFloat` and fractional coordinates are left out. Coordinates are integers, and `e.targetTouches[0] || e.changedTouches[0]` is one point per event.
- Callback bodies are left out: exceptions they throw, and changes they make to the controller, are not modelled.
- Assigning the callbacks and the settings (`monitorOverDrop`, the border effects, `ltTime`) is a plain property write by the page, so it has no operation here.
- `ltTime` is stored but never read. The timer uses the literal 500, as in the source.
- Several `dragmate` instances sharing the document's four listener slots are left out.
- Upper- and lower-casing in `Styles` covers ASCII letters only.
- The trace lemmas in `Sessions` fix one layout for a whole run. The per-event methods take any layout.
- HitTest.Painted: its own contract states only that no border style is removed. The values written are stated by `HitTest.PaintedBorders`, because a quantified contract on `Painted` makes the loop proof of `Controller.Dragmate.OverDropEffect` too costly.
- Sessions.LongTouchIff: stated only for runs with no later press. A long-touch timer is never cleared, and it tests `ltCnl` only when it runs. A timer from an earlier touch press can therefore fire during a later press that has not moved. This is kept as written (`Sessions.StaleTimerFires`); a corrected timer is not modelled.
- The array loops of `setDraggable` and `setDroppable` overwrite the flag at each entry, so the flag reports only the first entry. For example, `setDraggable(["none", ".good"])` adds the `.good` elements but leaves the flag false, because `el` does not recognise `none`, and `registerDraggable` is skipped. This is kept as written in `Registry.IncEach`.
- Arguments that are neither strings nor plain element references are left out: `Registry.Target` and `Registry.Arg` cannot express them. `setDraggable(null)` reads `null[0]` (dragmate.js:135) and `setDroppable(null)` reads `null.length` (dragmate.js:157), and both throw. An element with indexed children and a `length`, such as a `<form>` or a `<select>`, is taken as a list by `setDraggable`, `setDroppable` and `el` (dragmate.js:135, 157, 206-211), so its controls are registered instead of the element itself.
- `Controller.Dragmate.SetDroppable`: a lone element reference is an object without `length`, so its loop runs zero times and the element is not added. This is kept as written.

## Findings

| source | as written | input that shows it | evidently intended | confidence | as-written member | corrected member |
|---|---|---|---|---|---|---|
| dragmate.js:206-215 | `el` tests `nl[0]`; an empty class list fails the test, so the list object itself is pushed as if it were an element and the flag reports success. `registerDraggable` then calls `addEventListener` on the collection and throws (226). As a droppable, the collection makes every later `overDropItem` throw at `getBoundingClientRect` (320) and `overDropEffect` throw at `.style.border` (348/350). In `dropDraggable` the throw comes before the teardown (408-415), so the listeners and the proxy stay, `dropActive` stays true, and every later press is ignored | `setDraggable(".none")` when no element has class `none` | no element is added and the flag reports false, as nothing was added | high, not executed | Registry.UnmatchedClassPushesCollection | Registry.El |
| dragmate.js:197-206 | `$id` returns null for an unknown id, and `nl[0]` then throws a TypeError | `setDroppable("#missing")` | no element is added and the flag reports false, as nothing was added | high, not executed | Registry.UnmatchedIdThrows | Registry.IncDragDropItem |
| dragmate.js:135-141 | `setDraggable` walks an array only when `d[0]` is truthy; otherwise the whole array goes to `incDragDropItem`, which pushes it as one element. `registerDraggable` then throws on it (226) | `setDraggable([])` or `setDraggable(["", ".a"])` | each entry is processed (none for an empty array) | high, not executed | Registry.ArrayWithFalsyHeadPushed | Registry.IncEach |

=== FILE: controller.dfy ===
/** The dragmate controller as an object: its fields are updated step by step
    as in dragmate.js, and every method is proved to move the controller (seen
    through Snapshot) exactly as the corresponding function of Machine does. */
module Controller {
  import opened Dom
  import opened HitTest
  import opened Registry
  import opened Machine

  class Dragmate {
    // Settings
    var dragItems: seq<Element>
    var dropItems: seq<Element>
    var dragItemsSet: bool
    var dropItemsSet: bool
    var handlers: Handlers
    var monitorOverDrop: bool
    var dragOnEffect: string
    var dragOffEffect: string
    var ltTime: int

    // Session
    var dragstartevt: bool
    var dropActive: bool
    var ltCnl: bool
    var drag: Drag
    var drop: Drop

    // The document as the controller changes it: the proxy's style, the
    // borders of elements, the four listener slots, the body's children
    var page: Page
    // The host's timer queue: every timer armed, and those that have run
    var timers: seq<Timer>
    var expired: set<nat>
    // The callbacks invoked so far
    ghost var log: seq<Callback>

    /** Elements carrying the mousedown/touchstart listeners of this controller
        (addEventListener ignores a second registration of the same listener). */
    ghost var listening: set<Element>

    ghost function Settings(): Config
      reads this
    {
      Config(dragItems, dropItems, dragItemsSet, dropItemsSet, handlers, monitorOverDrop,
             dragOnEffect, dragOffEffect, ltTime)
    }

    ghost function Sess(): Session
      reads this
    {
      Session(dragstartevt, dropActive, ltCnl, drag, drop)
    }

    ghost function Snapshot(): State
      reads this
    {
      State(Settings(), Sess(), page, timers, expired, log)
    }

    constructor ()
      ensures Snapshot() == Initial() && listening == {}
    {
      dragItems, dropItems, dragItemsSet, dropItemsSet := [], [], false, false;
      handlers := Handlers(false, false, false, false, false);
      monitorOverDrop, dragOnEffect, dragOffEffect, ltTime := false, DefaultOnEffect, DefaultOffEffect, 500;
      dragstartevt, dropActive, ltCnl := false, false, false;
      drag, drop := Drag(None, 0, 0, 0, 0), Drop(None, 0, 0);
      page := Page(NoProxy, map[], None, false, 0, 0, 0, 0);
      timers, expired, log := [], {}, [];
      listening := {};
    }

    // -------------------------------------------------------------------------
    // Registration

    /** incDragDropItem's collection argument is the draggable or the
        droppable array; the caller stores the grown array back. */
    method SetDraggable(d: Arg, doc: Document)
      modifies this
      ensures dragItems == old(dragItems) + Added(d, doc)
      ensures dragItemsSet == Outcome(d, old(dragItemsSet), doc)
      ensures listening == old(listening) + (if dragItemsSet then set k | 0 <= k < |dragItems| :: dragItems[k] else {})
      ensures Snapshot() == old(Snapshot()).(cfg := old(Snapshot()).cfg.(dragItems := dragItems, dragItemsSet := dragItemsSet))
    {
      match d {
        case One(t) =>
          dragItemsSet, dragItems := IncDragDropItem(t, dragItems, doc);
        case Many(ts) =>
          dragItemsSet, dragItems := IncEach(ts, dragItems, dragItemsSet, doc);
      }
      // registerDraggable runs when the flag is set
      if dragItemsSet {
        RegisterDraggable();
      }
    }

    /** registerDraggable: every draggable element, old and new, gets the
        press listeners. */
    method RegisterDraggable()
      modifies this
      ensures listening == old(listening) + set k | 0 <= k < |dragItems| :: dragItems[k]
      ensures Snapshot() == old(Snapshot())
    {
      var l := |dragItems|;
      while l > 0
        invariant 0 <= l <= |dragItems|
        invariant listening == old(listening) + set k | l <= k < |dragItems| :: dragItems[k]
        invariant Snapshot() == old(Snapshot())
      {
        l := l - 1;
        listening := listening + {dragItems[l]};
      }
    }
  
    /** setDroppable: an array is walked from its last entry down (an empty
        array, or a lone element reference, walks nothing); a string is
        handed to incDragDropItem. The flag is the outcome of the entry
        processed last. */
    method SetDroppable(d: Arg, doc: Document)
      modifies this
      ensures dropItems == old(dropItems) + Added(DroppableArg(d), doc)
      ensures dropItemsSet == Outcome(DroppableArg(d), old(dropItemsSet), doc)
      ensures listening == old(listening)
      ensures Snapshot() == old(Snapshot()).(cfg := old(Snapshot()).cfg.(dropItems := dropItems, dropItemsSet := dropItemsSet))
    {
      match d {
        case One(t) =>
          if t.Selector? {
            dropItemsSet, dropItems := IncDragDropItem(t, dropItems, doc);
          }
        case Many(ts) =>
          dropItemsSet, dropItems := IncEach(ts, dropItems, dropItemsSet, doc);
      }
    }

    // -------------------------------------------------------------------------
    // Hit-test and feedback

    /** overDropEffect: writes the border of every droppable item, from the
        last down to the first. */
    method OverDropEffect(i: int)
      modifies this
      ensures Snapshot() == Machine.OverDropEffect(old(Snapshot()), i)
      ensures listening == old(listening)
    {
      var items, b := dropItems, page.borders;
      var l := |items|;
      while l > 0
        invariant 0 <= l <= |items|
        invariant b == Painted(page.borders, items, i, dragOnEffect, dragOffEffect, l)
      {
        l := l - 1;
        if l == i {
          b := b[items[l] := dragOnEffect];
        } else {
          b := b[items[l] := dragOffEffect];
        }
      }
      page := page.(borders := b);
    }

    /** overDropItem: the scan, the feedback, then the drop record. */
    method OverDropItem(p: Option<Point>, layout: Layout) returns (found: Option<Element>)
      modifies this
      ensures Snapshot() == Machine.OverDropItem(old(Snapshot()), p, layout)
      ensures found == drop.dropElem && listening == old(listening)
    {
      var di := FindDropIndex(dropItems, layout, p);
      OverDropEffect(di);
      drop := drop.(dropElem := if di == -1 then None else Some(dropItems[di]));
      found := drop.dropElem;
    }

    // -------------------------------------------------------------------------
    // The proxy

    /** createDragElem: the source element's origin, then a hidden proxy
        appended to the body. */
    method CreateDragElem(ev: PointerEvent, layout: Layout)
      modifies this
      ensures Snapshot() == Machine.CreateDragElem(old(Snapshot()), ev, layout)
      ensures listening == old(listening)
    {
      var sPos := layout(ev.target);
      drag := drag.(dragElemY := sPos.top);
      drag := drag.(dragElemX := sPos.left);
      page := page.(proxy := Overlay(Hidden, None, None), proxyInBody := true, created := page.created + 1);
    }

    /** dragDraggable: display, then top and left. */
    method DragDraggable(p: Option<Point>)
      modifies this
      ensures Snapshot() == Machine.DragDraggable(old(Snapshot()), p)
      ensures listening == old(listening)
    {
      if page.proxy.Overlay? {
        var vis := page.proxy.(display := Block);
        if p.Some? {
          var yd := p.value.y - drag.startY;
          var xd := p.value.x - drag.startX;
          vis := vis.(top := Some(drag.dragElemY + yd));
          vis := vis.(left := Some(drag.dragElemX + xd));
        }
        page := page.(proxy := vis);
      }
    }

    // -------------------------------------------------------------------------
    // The handlers

    /** gotDraggable: the press listener of every draggable element. */
    method GotDraggable(ev: PointerEvent, layout: Layout)
      modifies this
      ensures Snapshot() == Press(old(Snapshot()), ev, layout)
      ensures listening == old(listening)
    {
      if dropActive {
        return;
      }
      if ev.kind == Mouse && ev.button != 0 {
        return;
      }
      ArmLongTouch(ev);
      RecordStart(ev);
      CreateDragElem(ev, layout);
      drag := drag.(dragElem := Some(ev.target));
      dropActive := true;
    }

    /** ltCnl cleared, then setTimeout with the literal delay. */
    method ArmLongTouch(ev: PointerEvent)
      modifies this
      ensures Snapshot() == Machine.ArmLongTouch(old(Snapshot()), ev)
      ensures listening == old(listening)
    {
      ltCnl := false;
      timers := timers + [Timer(ev, LongPressDelay)];
    }

    /** The press position, then the document slots for this kind of input. */
    method RecordStart(ev: PointerEvent)
      modifies this
      ensures Snapshot() == Machine.RecordStart(old(Snapshot()), ev)
      ensures listening == old(listening)
    {
      drag := drag.(startX := ev.x, startY := ev.y);
      page := page.(listeners := Some(ev.kind), attached := page.attached + 1);
    }

    /** trackDrag: the document's move listener while a drag is active. */
    method TrackDrag(ev: PointerEvent, layout: Layout)
      modifies this
      ensures Snapshot() == Machine.TrackDrag(old(Snapshot()), ev, layout)
      ensures listening == old(listening)
    {
      StartDrag(ev);
      var p := ReadPoint(ev);
      DragDraggable(p);
      if dropItemsSet && monitorOverDrop {
        var _ := OverDropItem(p, layout);
      }
      if handlers.dragmove {
        log := log + [DragMove(ev, drag, drop)];
      }
    }

    /** The start of trackDrag: the long touch cancelled, and ondragstart on
        the first move of the drag. */
    method StartDrag(ev: PointerEvent)
      modifies this
      ensures Snapshot() == Machine.StartDrag(old(Snapshot()), ev)
      ensures listening == old(listening)
    {
      ltCnl := true;
      if !dragstartevt {
        dragstartevt := true;
        if handlers.dragstart {
          log := log + [DragStart(ev, drag)];
        }
      }
    }

    /** dropDraggable: the document's release listener while a drag is
        active. */
    method DropDraggable(ev: PointerEvent, layout: Layout)
      modifies this
      ensures Snapshot() == Machine.DropDraggable(old(Snapshot()), ev, layout)
      ensures listening == old(listening)
    {
      if ev.kind == Mouse && ev.button != 0 {
        return;
      }
      RecordEnd(ev);
      if !monitorOverDrop {
        var _ := OverDropItem(Some(Point(drop.endX, drop.endY)), layout);
      }
      OverDropEffect(-1);
      Teardown();
      DropCallbacks(ev);
    }

    /** The start of dropDraggable: long touch cancelled, drag-start flag
        reset, the release position recorded when it can be read. */
    method RecordEnd(ev: PointerEvent)
      modifies this
      ensures Snapshot() == Machine.RecordEnd(old(Snapshot()), ev)
      ensures listening == old(listening)
    {
      ltCnl := true;
      dragstartevt := false;
      var p := ReadPoint(ev);
      if p.Some? {
        drop := drop.(endX := p.value.x, endY := p.value.y);
      }
    }

    /** The four document slots nulled, the proxy removed from the body, the
        drag no longer active. */
    method Teardown()
      modifies this
      ensures Snapshot() == Machine.Teardown(old(Snapshot()))
      ensures listening == old(listening)
    {
      page := page.(listeners := None, detached := page.detached + 1);
      page := page.(proxyInBody := false, removed := page.removed + 1);
      dropActive := false;
    }

    /** ondrop when a droppable element was resolved, then ondragend. */
    method DropCallbacks(ev: PointerEvent)
      modifies this
      ensures Snapshot() == Machine.DropCallbacks(old(Snapshot()), ev)
      ensures listening == old(listening)
    {
      if drop.dropElem.Some? && handlers.drop {
        log := log + [Dropped(ev, drag, drop, Status(dropActive, page.listeners, page.proxyInBody))];
      }
      if handlers.dragend {
        log := log + [DragEnd(ev, drag, drop, Status(dropActive, page.listeners, page.proxyInBody))];
      }
    }

    /** The document's move slot: set for one kind of input during a drag. */
    method PointerMove(ev: PointerEvent, layout: Layout)
      modifies this
      ensures Snapshot() == Move(old(Snapshot()), ev, layout)
      ensures listening == old(listening)
    {
      if page.listeners == Some(ev.kind) {
        TrackDrag(ev, layout);
      }
    }

    /** The document's release slot. */
    method PointerUp(ev: PointerEvent, layout: Layout)
      modifies this
      ensures Snapshot() == Release(old(Snapshot()), ev, layout)
      ensures listening == old(listening)
    {
      if page.listeners == Some(ev.kind) {
        DropDraggable(ev, layout);
      }
    }

    /** The closure gotDraggable hands to setTimeout, run for timer k: it
        tests ltCnl when it runs and then calls touchLongpress. */
    method TimerExpire(k: nat)
      modifies this
      ensures Snapshot() == Machine.TimerExpire(old(Snapshot()), k)
      ensures listening == old(listening)
    {
      if k >= |timers| || k in expired {
        return;
      }
      expired := expired + {k};
      if !ltCnl {
        TouchLongpress(timers[k].event);
      }
    }

    /** touchLongpress: onlongtouch, only for a touch event. */
    method TouchLongpress(e: PointerEvent)
      modifies this
      ensures Snapshot() == old(Snapshot()).(log := old(log) + (if e.kind == Touch && handlers.longtouch then [LongTouch(e, ltCnl)] else []))
      ensures listening == old(listening)
    {
      if e.kind == Touch && handlers.longtouch {
        log := log + [LongTouch(e, ltCnl)];
      }
    }
  }
}

=== FILE: dom.dfy ===
/** The host document as the drag/drop controller sees it: element handles,
    their bounding rectangles, pointer events and the two element lookups. */
module Dom {

  datatype Option<T> = None | Some(value: T)

  /** Opaque handle of a document element, supplied by the host. */
  type Element = nat

  datatype Point = Point(x: int, y: int)

  /** What getBoundingClientRect reports for an element. */
  datatype Rect = Rect(left: int, top: int, width: int, height: int)

  /** Where the host currently lays out every element. */
  type Layout = Element -> Rect

  datatype Kind = Mouse | Touch

  /** A mousedown/mousemove/mouseup or touchstart/touchmove/touchend event.
      For a mouse event `x`, `y` are clientX/clientY; for a touch event they are
      pageX/pageY of the first target (or changed) touch point. `button` is only
      read for mouse events. */
  datatype PointerEvent = PointerEvent(kind: Kind, button: int, x: int, y: int, target: Element)

  /** The lookups behind getElementsByClassName and getElementById. */
  datatype Document = Document(byClass: map<string, seq<Element>>, byId: map<string, Element>)

  /** Elements carrying a class, in document order (empty when none). */
  function ClassList(doc: Document, name: string): seq<Element>
  {
    if name in doc.byClass then doc.byClass[name] else []
  }
}

=== FILE: geometry.dfy ===
/** Containment of a pointer in an element's rectangle and the position of the
    floating proxy during a drag. */
module Geometry {
  import opened Dom

  /** The closed-interval test of overDropItem: both edges of both axes count. */
  predicate Covers(r: Rect, p: Point)
  {
    r.top <= p.y <= r.top + r.height && r.left <= p.x <= r.left + r.width
  }

  /** A rectangle with non-negative size covers its four corners, and nothing
      one unit outside any of its edges. */
  lemma EdgesInclusive(r: Rect)
    requires r.width >= 0 && r.height >= 0
    ensures Covers(r, Point(r.left, r.top)) && Covers(r, Point(r.left + r.width, r.top))
    ensures Covers(r, Point(r.left, r.top + r.height))
    ensures Covers(r, Point(r.left + r.width, r.top + r.height))
    ensures forall p: Point :: p.x == r.left - 1 || p.x == r.left + r.width + 1 ==> !Covers(r, p)
    ensures forall p: Point :: p.y == r.top - 1 || p.y == r.top + r.height + 1 ==> !Covers(r, p)
  {
  }

  /** Where dragDraggable puts the proxy: the source element's origin moved by
      the pointer's displacement since the press. The proxy therefore keeps the
      offset between pointer and element that the press established, and sits
      on the origin when the pointer is back where it started. */
  function ProxyPosition(origin: Point, start: Point, p: Point): (r: Point)
    ensures r.x - p.x == origin.x - start.x && r.y - p.y == origin.y - start.y
    ensures p == start ==> r == origin
  {
    Point(origin.x + (p.x - start.x), origin.y + (p.y - start.y))
  }
}

=== FILE: hittest.dfy ===
/** The hit-test of overDropItem and the border feedback of overDropEffect. */
module HitTest {
  import opened Dom
  import opened Geometry

  /** Droppable item k contains the pointer; an unreadable pointer position
      (None) is inside nothing, as every comparison with it fails. */
  predicate Hits(items: seq<Element>, layout: Layout, p: Option<Point>, k: int)
    requires 0 <= k < |items|
  {
    p.Some? && Covers(layout(items[k]), p.value)
  }

  /** Lowest index at or after `from` whose rectangle contains p, or -1. */
  function HitFrom(items: seq<Element>, layout: Layout, p: Option<Point>, from: nat): (r: int)
    requires from <= |items|
    decreases |items| - from
    ensures -1 <= r < |items|
    ensures r >= 0 ==> from <= r && Hits(items, layout, p, r)
    ensures r >= 0 ==> forall k :: from <= k < r ==> !Hits(items, layout, p, k)
    ensures r == -1 ==> forall k :: from <= k < |items| ==> !Hits(items, layout, p, k)
  {
    if from == |items| then -1
    else if Hits(items, layout, p, from) then from
    else HitFrom(items, layout, p, from + 1)
  }

  /** The droppable index overDropItem settles on: the lowest index containing
      the pointer, or -1 when no item contains it. */
  function FirstHit(items: seq<Element>, layout: Layout, p: Option<Point>): (r: int)
    ensures -1 <= r < |items|
    ensures r >= 0 ==> Hits(items, layout, p, r) && forall k :: 0 <= k < r ==> !Hits(items, layout, p, k)
    ensures r == -1 <==> forall k :: 0 <= k < |items| ==> !Hits(items, layout, p, k)
  {
    HitFrom(items, layout, p, 0)
  }

  /** The element overDropItem records in drop.dropElem: the item at the lowest
      index containing the pointer, or None (`false`) when no item contains it. */
  function DropTarget(items: seq<Element>, layout: Layout, p: Option<Point>): (r: Option<Element>)
    ensures r.None? <==> forall k :: 0 <= k < |items| ==> !Hits(items, layout, p, k)
    ensures r.Some? ==> exists k :: (0 <= k < |items| && items[k] == r.value && Hits(items, layout, p, k)
                                     && forall j :: 0 <= j < k ==> !Hits(items, layout, p, j))
  {
    var w := FirstHit(items, layout, p);
    if w == -1 then None else Some(items[w])
  }

  /** The scan of overDropItem: from the last item down to the first, each item
      containing the point overwrites the index found so far, so the lowest
      containing index is the one that survives. */
  method FindDropIndex(items: seq<Element>, layout: Layout, p: Option<Point>) returns (di: int)
    ensures di == FirstHit(items, layout, p)
  {
    var l := |items|;
    di := -1;
    while l > 0
      invariant 0 <= l <= |items|
      invariant di == HitFrom(items, layout, p, l)
    {
      l := l - 1;
      if p.Some? {
        var bnd := layout(items[l]);
        if p.value.y >= bnd.top && p.value.y <= bnd.top + bnd.height {
          if p.value.x >= bnd.left && p.value.x <= bnd.left + bnd.width {
            di := l;
          }
        }
      }
    }
  }

  /** Position of the first occurrence of e in items at or after `from`. */
  function FirstAt(items: seq<Element>, e: Element, from: nat): (j: nat)
    requires from <= |items| && e in items[from..]
    decreases |items| - from
    ensures from <= j < |items| && items[j] == e
    ensures forall k :: from <= k < j ==> items[k] != e
  {
    if items[from] == e then from
    else
      assert items[from..] == [items[from]] + items[from + 1..];
      FirstAt(items, e, from + 1)
  }

  /** Border styles after overDropEffect(i) has written items[|items|-1] down to
      items[from]. */
  function Painted(borders: map<Element, string>, items: seq<Element>, i: int, on: string, off: string, from: nat)
    : (r: map<Element, string>)
    requires from <= |items|
    decreases |items| - from
    ensures borders.Keys <= r.Keys
  {
    if from == |items| then borders
    else Painted(borders, items, i, on, off, from + 1)[items[from] := if from == i then on else off]
  }

  /** What the sweep leaves: an item gets `on` when it is the item at index i,
      otherwise `off`. An element registered more than once keeps the value
      written at its lowest position, which is written last; elements outside
      the sweep keep their style. */
  lemma {:induction false} PaintedBorders(borders: map<Element, string>, items: seq<Element>, i: int, on: string, off: string, from: nat)
    requires from <= |items|
    decreases |items| - from
    ensures var r := Painted(borders, items, i, on, off, from);
      forall k :: from <= k < |items| ==>
        items[k] in r && r[items[k]] == (if FirstAt(items, items[k], from) == i then on else off)
    ensures var r := Painted(borders, items, i, on, off, from);
      forall e :: e !in items[from..] ==> (e in r <==> e in borders) && (e in borders ==> r[e] == borders[e])
  {
    if from < |items| {
      PaintedBorders(borders, items, i, on, off, from + 1);
      assert items[from..] == [items[from]] + items[from + 1..];
    }
  }

  /** overDropEffect(-1), run at every release: every droppable item gets the
      `off` border. */
  lemma AllOff(borders: map<Element, string>, items: seq<Element>, on: string, off: string)
    ensures forall k :: 0 <= k < |items| ==>
      items[k] in Painted(borders, items, -1, on, off, 0) && Painted(borders, items, -1, on, off, 0)[items[k]] == off
  {
    PaintedBorders(borders, items, -1, on, off, 0);
  }

  /** The feedback of overDropItem: after the hit-test, exactly the element
      found under the pointer carries the `on` border and every other droppable
      item the `off` border (all of them when nothing was hit), even when an
      element is registered more than once. */
  lemma {:induction false} FeedbackMarksWinner(borders: map<Element, string>, items: seq<Element>, layout: Layout,
                                              p: Option<Point>, on: string, off: string)
    ensures var w := FirstHit(items, layout, p);
      var r := Painted(borders, items, w, on, off, 0);
      forall k :: 0 <= k < |items| ==>
        items[k] in r && r[items[k]] == (if w >= 0 && items[k] == items[w] then on else off)
  {
    var w := FirstHit(items, layout, p);
    PaintedBorders(borders, items, w, on, off, 0);
    forall k | 0 <= k < |items|
      ensures FirstAt(items, items[k], 0) == w <==> (w >= 0 && items[k] == items[w])
    {
      var j := FirstAt(items, items[k], 0);
      if w >= 0 && items[k] == items[w] {
        // the first copy of the winner has the same rectangle, so it is hit
        assert Hits(items, layout, p, j);
      }
    }
  }
}

=== FILE: machine.dfy ===
/** The drag/drop controller as a state and its transitions: one function per
    handler of dragmate.js (gotDraggable, trackDrag, dropDraggable, the
    long-touch timer) over a value holding every field of the controller and
    the parts of the document it touches. The class in Controller updates its
    fields step by step and is proved to follow these functions. */
module Machine {
  import opened Dom
  import opened Geometry
  import opened HitTest

  /** gotDraggable arms the long-touch timer with this literal delay; the
      configurable ltTime is never read. */
  const LongPressDelay := 500

  const DefaultOnEffect := "1px solid #1DACDA"
  const DefaultOffEffect := "1px solid #CCCCCC"

  /** Which of ondragstart, ondragmove, ondragend, ondrop, onlongtouch are set
      (not null). */
  datatype Handlers = Handlers(dragstart: bool, dragmove: bool, dragend: bool, drop: bool, longtouch: bool)

  /** The `drag` record: the element under drag, its screen origin when the
      drag began and the pointer position at the press. */
  datatype Drag = Drag(dragElem: Option<Element>, dragElemX: int, dragElemY: int, startX: int, startY: int)

  /** The `drop` record: the droppable element last found under the pointer
      (None for `false`) and the last recorded release position. */
  datatype Drop = Drop(dropElem: Option<Element>, endX: int, endY: int)

  datatype Display = Hidden | Block

  /** The floating copy referenced by drag.visElem: none before the first
      press, then a fixed-position element with its display and its top/left
      (None until first set). */
  datatype Proxy = NoProxy | Overlay(display: Display, top: Option<int>, left: Option<int>)

  /** A pending setTimeout of gotDraggable, with the press event it captured. */
  datatype Timer = Timer(event: PointerEvent, delay: nat)

  /** What a callback can see of the session besides its arguments, since it
      runs as a method of the controller: the controller's dropActive flag,
      the document's listener slots and whether the proxy is in the body. */
  datatype Status = Status(dropActive: bool, listeners: Option<Kind>, proxyInBody: bool)

  /** The status after dropDraggable's teardown. */
  const TornDown := Status(false, None, false)

  /** One invocation of a user callback with the arguments it received; the
      release callbacks also record the status they ran in. */
  datatype Callback =
    | DragStart(event: PointerEvent, drag: Drag)
    | DragMove(event: PointerEvent, drag: Drag, drop: Drop)
    | Dropped(event: PointerEvent, drag: Drag, drop: Drop, seen: Status)
    | DragEnd(event: PointerEvent, drag: Drag, drop: Drop, seen: Status)
    | LongTouch(event: PointerEvent, cancelled: bool)

  /** A release callback ran after the teardown. */
  predicate SawTeardown(c: Callback)
  {
    (c.Dropped? || c.DragEnd?) ==> c.seen == TornDown
  }

  /** The controller's settings, written by the setters and the properties a
      page assigns, and only read by the handlers. */
  datatype Config = Config(
    dragItems: seq<Element>, dropItems: seq<Element>, dragItemsSet: bool, dropItemsSet: bool,
    handlers: Handlers, monitorOverDrop: bool, onEffect: string, offEffect: string, ltTime: int)

  /** The controller's fields the handlers update. */
  datatype Session = Session(dragstartevt: bool, dropActive: bool, ltCnl: bool, drag: Drag, drop: Drop)

  /** The document state the handlers change: the proxy's style, border styles
      of elements, the document's move/up listener slots (the kind of input they
      are set for, or None when all four are null), whether the proxy is in the
      body, and counters of proxies created/removed and of listener pairs
      attached/detached. */
  datatype Page = Page(
    proxy: Proxy, borders: map<Element, string>, listeners: Option<Kind>, proxyInBody: bool,
    created: nat, removed: nat, attached: nat, detached: nat)

  /** Everything together, with the timers armed so far, those already run and
      the callbacks invoked so far. */
  datatype State = State(cfg: Config, ses: Session, page: Page, timers: seq<Timer>, expired: set<nat>,
                         log: seq<Callback>)

  /** The controller as constructed: empty collections, no callbacks,
      monitoring off, no drag yet. */
  function Initial(): (s: State)
    ensures Valid(s) && !s.ses.dropActive && s.log == []
  {
    State(Config([], [], false, false, Handlers(false, false, false, false, false), false,
                 DefaultOnEffect, DefaultOffEffect, 500),
          Session(false, false, false, Drag(None, 0, 0, 0, 0), Drop(None, 0, 0)),
          Page(NoProxy, map[], None, false, 0, 0, 0, 0),
          [], {}, [])
  }

  // ---------------------------------------------------------------------------
  // Counting callbacks in the log

  predicate IsDragStart(c: Callback) { c.DragStart? }
  predicate IsDragEnd(c: Callback) { c.DragEnd? }
  predicate IsDropped(c: Callback) { c.Dropped? }
  predicate IsLongTouch(c: Callback) { c.LongTouch? }

  function Count(log: seq<Callback>, f: Callback -> bool): nat
  {
    if log == [] then 0 else (if f(log[0]) then 1 else 0) + Count(log[1..], f)
  }

  lemma {:induction false} CountAppend(a: seq<Callback>, b: seq<Callback>, f: Callback -> bool)
    ensures Count(a + b, f) == Count(a, f) + Count(b, f)
  {
    if a == [] {
      assert a + b == b;
    } else {
      assert (a + b)[0] == a[0] && (a + b)[1..] == a[1..] + b;
      CountAppend(a[1..], b, f);
    }
  }

  // ---------------------------------------------------------------------------
  // The invariant of the controller

  /** A drag is active exactly while the document listeners are attached and
      the proxy is in the body; every proxy created and every listener pair
      attached has been removed, except the current session's; the drag-start
      flag only stands during a session; every timer has the literal delay; and
      no session has fired ondragstart twice, nor ondragend or ondrop more often
      than sessions have ended; and every ondrop and ondragend ran after its
      session was torn down. */
  ghost predicate Valid(s: State)
  {
    var active := s.ses.dropActive;
    (active <==> s.page.listeners.Some?) && (active <==> s.page.proxyInBody)
    && s.page.created == s.page.removed + (if active then 1 else 0)
    && s.page.attached == s.page.detached + (if active then 1 else 0)
    && (s.ses.dragstartevt ==> active)
    && (active ==> s.page.proxy.Overlay? && s.ses.drag.dragElem.Some?)
    && (forall k :: 0 <= k < |s.timers| ==> s.timers[k].delay == LongPressDelay)
    && (forall k :: k in s.expired ==> k < |s.timers|)
    && Count(s.log, IsDragStart) + (if active && !s.ses.dragstartevt then 1 else 0) <= s.page.created
    && Count(s.log, IsDragEnd) <= s.page.removed
    && Count(s.log, IsDropped) <= s.page.removed
    && AllSawTeardown(s.log)
  }

  predicate AllSawTeardown(log: seq<Callback>)
  {
    forall k :: 0 <= k < |log| ==> SawTeardown(log[k])
  }

  // ---------------------------------------------------------------------------
  // Pieces shared by the handlers

  /** The pointer position trackDrag and dropDraggable read: only when both
      coordinates are non-zero; otherwise their variables stay undefined. */
  function ReadPoint(ev: PointerEvent): (p: Option<Point>)
    ensures p.Some? <==> ev.x != 0 && ev.y != 0
    ensures p.Some? ==> p.value == Point(ev.x, ev.y)
  {
    if ev.x != 0 && ev.y != 0 then Some(Point(ev.x, ev.y)) else None
  }

  /** overDropEffect(i): the border sweep over the droppable items. */
  function OverDropEffect(s: State, i: int): (r: State)
    ensures r == s.(page := s.page.(borders := r.page.borders))
  {
    s.(page := s.page.(borders := Painted(s.page.borders, s.cfg.dropItems, i, s.cfg.onEffect, s.cfg.offEffect, 0)))
  }

  /** overDropItem(p): finds the droppable item under p, paints the feedback
      and records the item (or false) in drop.dropElem. */
  function OverDropItem(s: State, p: Option<Point>, layout: Layout): (r: State)
    ensures r == s.(page := s.page.(borders := r.page.borders),
                    ses := s.ses.(drop := s.ses.drop.(dropElem := r.ses.drop.dropElem)))
    ensures r.ses.drop.dropElem == DropTarget(s.cfg.dropItems, layout, p)
  {
    var di := FirstHit(s.cfg.dropItems, layout, p);
    var s1 := OverDropEffect(s, di);
    s1.(ses := s1.ses.(drop := s1.ses.drop.(dropElem := if di == -1 then None else Some(s.cfg.dropItems[di]))))
  }

  /** The feedback overDropItem paints: exactly the element found under the
      pointer carries the hover border, every other droppable item the plain
      one. */
  lemma OverDropItemFeedback(s: State, p: Option<Point>, layout: Layout)
    ensures var r := OverDropItem(s, p, layout);
      forall k :: 0 <= k < |s.cfg.dropItems| ==>
        var e := s.cfg.dropItems[k];
        e in r.page.borders && r.page.borders[e] == (if Some(e) == r.ses.drop.dropElem then s.cfg.onEffect else s.cfg.offEffect)
  {
    FeedbackMarksWinner(s.page.borders, s.cfg.dropItems, layout, p, s.cfg.onEffect, s.cfg.offEffect);
  }

  /** createDragElem: records the source element's origin and puts a hidden
      proxy in the body. */
  function CreateDragElem(s: State, ev: PointerEvent, layout: Layout): (r: State)
    ensures r.cfg == s.cfg && r.timers == s.timers && r.expired == s.expired && r.log == s.log
    ensures r.ses == s.ses.(drag := s.ses.drag.(dragElemX := layout(ev.target).left, dragElemY := layout(ev.target).top))
    ensures r.page == s.page.(proxy := Overlay(Hidden, None, None), proxyInBody := true, created := s.page.created + 1)
  {
    var sPos := layout(ev.target);
    s.(ses := s.ses.(drag := s.ses.drag.(dragElemY := sPos.top, dragElemX := sPos.left)),
       page := s.page.(proxy := Overlay(Hidden, None, None), proxyInBody := true, created := s.page.created + 1))
  }

  /** dragDraggable: shows the proxy and, when the pointer position could be
      read, moves it by the pointer's displacement since the press. An
      unreadable position yields "NaNpx", which the style ignores. */
  function DragDraggable(s: State, p: Option<Point>): (r: State)
    ensures r == s.(page := s.page.(proxy := r.page.proxy))
    ensures s.page.proxy.Overlay? ==> r.page.proxy.Overlay? && r.page.proxy.display == Block
    ensures s.page.proxy.Overlay? && p.Some? ==>
      var d := s.ses.drag;
      var pos := ProxyPosition(Point(d.dragElemX, d.dragElemY), Point(d.startX, d.startY), p.value);
      r.page.proxy.top == Some(pos.y) && r.page.proxy.left == Some(pos.x)
    ensures s.page.proxy.Overlay? && p.None? ==>
      r.page.proxy.top == s.page.proxy.top && r.page.proxy.left == s.page.proxy.left
  {
    match s.page.proxy
    case NoProxy => s
    case Overlay(_, top, left) =>
      if p.Some? then
        var d := s.ses.drag;
        var pos := ProxyPosition(Point(d.dragElemX, d.dragElemY), Point(d.startX, d.startY), p.value);
        s.(page := s.page.(proxy := Overlay(Block, Some(pos.y), Some(pos.x))))
      else s.(page := s.page.(proxy := Overlay(Block, top, left)))
  }

  function Fire(s: State, on: bool, c: Callback): (r: State)
    ensures r == s.(log := r.log)
    ensures r.log == s.log + (if on then [c] else [])
  {
    if on then s.(log := s.log + [c]) else s
  }

  // ---------------------------------------------------------------------------
  // The handlers

  /** gotDraggable accepts a press when no drag is active and it is not a
      mouse press of a button other than the primary one. */
  predicate AcceptsPress(s: State, ev: PointerEvent)
  {
    !s.ses.dropActive && !(ev.kind == Mouse && ev.button != 0)
  }

  /** gotDraggable: a press on a draggable element. It arms the long-touch
      timer, records the press position, attaches the document listeners for
      this kind of input, creates the hidden proxy and marks the drag active.
      The drop record and the drag-start flag are left as they were. */
  function Press(s: State, ev: PointerEvent, layout: Layout): (r: State)
    ensures !AcceptsPress(s, ev) ==> r == s
    ensures AcceptsPress(s, ev) ==>
      r.ses == s.ses.(dropActive := true, ltCnl := false,
                      drag := Drag(Some(ev.target), layout(ev.target).left, layout(ev.target).top, ev.x, ev.y))
      && r.page == s.page.(proxy := Overlay(Hidden, None, None), proxyInBody := true, listeners := Some(ev.kind),
                           created := s.page.created + 1, attached := s.page.attached + 1)
      && r.timers == s.timers + [Timer(ev, LongPressDelay)]
      && r.cfg == s.cfg && r.expired == s.expired && r.log == s.log
  {
    if !AcceptsPress(s, ev) then s
    else
      var s3 := CreateDragElem(RecordStart(ArmLongTouch(s, ev), ev), ev, layout);
      s3.(ses := s3.ses.(drag := s3.ses.drag.(dragElem := Some(ev.target)), dropActive := true))
  }

  /** The long touch is armed: ltCnl cleared, a timer with the literal delay
      queued with the press event. */
  function ArmLongTouch(s: State, ev: PointerEvent): (r: State)
    ensures r.ses == s.ses.(ltCnl := false) && r.timers == s.timers + [Timer(ev, LongPressDelay)]
    ensures r.cfg == s.cfg && r.page == s.page && r.expired == s.expired && r.log == s.log
  {
    s.(ses := s.ses.(ltCnl := false), timers := s.timers + [Timer(ev, LongPressDelay)])
  }

  /** The press position is recorded and the document's listeners for this
      kind of input are set. */
  function RecordStart(s: State, ev: PointerEvent): (r: State)
    ensures Delivered(r, ev) && r.page.attached == s.page.attached + 1
    ensures r.ses.drag.startX == ev.x && r.ses.drag.startY == ev.y
    ensures r.cfg == s.cfg && r.timers == s.timers && r.expired == s.expired && r.log == s.log
  {
    s.(ses := s.ses.(drag := s.ses.drag.(startX := ev.x, startY := ev.y)),
       page := s.page.(listeners := Some(ev.kind), attached := s.page.attached + 1))
  }

  /** The first part of trackDrag: the long touch is cancelled, and on the first
      move of a drag the flag is raised and ondragstart invoked. */
  function StartDrag(s: State, ev: PointerEvent): (r: State)
    ensures r == s.(ses := s.ses.(ltCnl := true, dragstartevt := true), log := r.log)
    ensures r.log == s.log + (if !s.ses.dragstartevt && s.cfg.handlers.dragstart then [DragStart(ev, s.ses.drag)] else [])
  {
    var s1 := s.(ses := s.ses.(ltCnl := true));
    if !s1.ses.dragstartevt then
      Fire(s1.(ses := s1.ses.(dragstartevt := true)), s1.cfg.handlers.dragstart, DragStart(ev, s1.ses.drag))
    else s1
  }

  /** The hit-test of trackDrag: only when droppable items are set and
      monitoring is on. */
  function MonitorDrop(s: State, p: Option<Point>, layout: Layout): (r: State)
    ensures r == s.(page := s.page.(borders := r.page.borders),
                    ses := s.ses.(drop := s.ses.drop.(dropElem := r.ses.drop.dropElem)))
    ensures s.cfg.dropItemsSet && s.cfg.monitorOverDrop ==> r.ses.drop.dropElem == DropTarget(s.cfg.dropItems, layout, p)
    ensures s.cfg.dropItemsSet && s.cfg.monitorOverDrop ==> r == OverDropItem(s, p, layout)
    ensures !(s.cfg.dropItemsSet && s.cfg.monitorOverDrop) ==> r == s
  {
    if s.cfg.dropItemsSet && s.cfg.monitorOverDrop then OverDropItem(s, p, layout) else s
  }

  /** trackDrag: a pointer move while the document listens for it. It cancels
      the long touch, fires ondragstart on the first move of the drag only,
      moves the proxy, runs the hit-test only when droppable items are set and
      monitoring is on, and fires ondragmove last, so that it sees the updated
      drop record. */
  function TrackDrag(s: State, ev: PointerEvent, layout: Layout): (r: State)
    ensures r.ses.ltCnl && r.ses.dragstartevt
    ensures r.cfg == s.cfg && r.timers == s.timers && r.expired == s.expired && s.log <= r.log
  {
    var p := ReadPoint(ev);
    var s1 := MonitorDrop(DragDraggable(StartDrag(s, ev), p), p, layout);
    Fire(s1, s1.cfg.handlers.dragmove, DragMove(ev, s1.ses.drag, s1.ses.drop))
  }

  /** A move cancels the long touch and marks the drag as started; it invokes
      ondragstart only when the drag had not started yet, then ondragmove with
      the updated records; it shows the proxy and places it at the pointer's
      displacement from the press (or keeps its place when the point is not
      read); it changes neither the settings nor the timers nor the session's
      listeners, and it moves the drop record and the hover borders only
      through the hit-test, which runs only when droppable items are set and
      monitoring is on; then only the element under the pointer carries the
      on border. */
  lemma MoveOutcome(s: State, ev: PointerEvent, layout: Layout)
    ensures var r := TrackDrag(s, ev, layout);
      r.ses == s.ses.(ltCnl := true, dragstartevt := true, drop := r.ses.drop)
      && r.log == s.log + (if !s.ses.dragstartevt && s.cfg.handlers.dragstart then [DragStart(ev, s.ses.drag)] else [])
                        + (if s.cfg.handlers.dragmove then [DragMove(ev, r.ses.drag, r.ses.drop)] else [])
      && r.cfg == s.cfg && r.timers == s.timers && r.expired == s.expired
      && r.page == s.page.(proxy := r.page.proxy, borders := r.page.borders)
      && (s.page.proxy.Overlay? ==> r.page.proxy.Overlay?)
      && (s.page.proxy.Overlay? && ReadPoint(ev).Some? ==>
            var d := s.ses.drag;
            var pos := ProxyPosition(Point(d.dragElemX, d.dragElemY), Point(d.startX, d.startY), Point(ev.x, ev.y));
            r.page.proxy == Overlay(Block, Some(pos.y), Some(pos.x)))
      && (s.page.proxy.Overlay? && ReadPoint(ev).None? ==>
            r.page.proxy == s.page.proxy.(display := Block))
      && (s.cfg.dropItemsSet && s.cfg.monitorOverDrop ==>
            r.ses.drop == s.ses.drop.(dropElem := DropTarget(s.cfg.dropItems, layout, ReadPoint(ev)))
            && r.page.borders == OverDropItem(s, ReadPoint(ev), layout).page.borders
            && forall k :: 0 <= k < |s.cfg.dropItems| ==>
                 var e := s.cfg.dropItems[k];
                 e in r.page.borders && r.page.borders[e] == (if Some(e) == r.ses.drop.dropElem then s.cfg.onEffect else s.cfg.offEffect))
      && (!(s.cfg.dropItemsSet && s.cfg.monitorOverDrop) ==> r.ses.drop == s.ses.drop && r.page.borders == s.page.borders)
  {
    OverDropItemFeedback(s, ReadPoint(ev), layout);
  }

  /** The document-level move listener delivers the event to trackDrag only
      when it is set for this kind of input. */
  predicate Delivered(s: State, ev: PointerEvent)
  {
    s.page.listeners == Some(ev.kind)
  }

  function Move(s: State, ev: PointerEvent, layout: Layout): (r: State)
    ensures !Delivered(s, ev) ==> r == s
  {
    if Delivered(s, ev) then TrackDrag(s, ev, layout) else s
  }

  /** dropDraggable ignores a mouseup of a non-primary button. */
  predicate AcceptsRelease(ev: PointerEvent)
  {
    !(ev.kind == Mouse && ev.button != 0)
  }

  /** The first part of dropDraggable: the long touch is cancelled, the
      drag-start flag reset, and the release position recorded when both its
      coordinates are non-zero. */
  function RecordEnd(s: State, ev: PointerEvent): (r: State)
    ensures r.ses == s.ses.(ltCnl := true, dragstartevt := false, drop := r.ses.drop)
    ensures r == s.(ses := r.ses)
    ensures ReadPoint(ev).Some? ==> r.ses.drop == s.ses.drop.(endX := ev.x, endY := ev.y)
    ensures ReadPoint(ev).None? ==> r.ses.drop == s.ses.drop
  {
    var s1 := s.(ses := s.ses.(ltCnl := true, dragstartevt := false));
    var p := ReadPoint(ev);
    if p.Some? then s1.(ses := s1.ses.(drop := s1.ses.drop.(endX := p.value.x, endY := p.value.y))) else s1
  }

  /** Without monitoring, dropDraggable looks the target up at the end point. */
  function ResolveDrop(s: State, layout: Layout): (r: State)
    ensures r == s.(page := s.page.(borders := r.page.borders),
                    ses := s.ses.(drop := s.ses.drop.(dropElem := r.ses.drop.dropElem)))
    ensures !s.cfg.monitorOverDrop ==>
      r.ses.drop.dropElem == DropTarget(s.cfg.dropItems, layout, Some(Point(s.ses.drop.endX, s.ses.drop.endY)))
    ensures s.cfg.monitorOverDrop ==> r == s
  {
    if !s.cfg.monitorOverDrop then OverDropItem(s, Some(Point(s.ses.drop.endX, s.ses.drop.endY)), layout) else s
  }

  /** The teardown of dropDraggable: listeners nulled, proxy removed, drag no
      longer active. */
  function Teardown(s: State): (r: State)
    ensures StatusOf(r) == TornDown
    ensures r.cfg == s.cfg && r.timers == s.timers && r.expired == s.expired && r.log == s.log
    ensures r.ses.drag == s.ses.drag && r.ses.drop == s.ses.drop
    ensures r.page.created == s.page.created && r.page.attached == s.page.attached
  {
    s.(ses := s.ses.(dropActive := false),
       page := s.page.(listeners := None, detached := s.page.detached + 1,
                       proxyInBody := false, removed := s.page.removed + 1))
  }

  /** The status a callback sees in state s. */
  function StatusOf(s: State): Status
  {
    Status(s.ses.dropActive, s.page.listeners, s.page.proxyInBody)
  }

  /** ondrop when a droppable element was resolved, then ondragend. */
  function DropCallbacks(s: State, ev: PointerEvent): (r: State)
    ensures r == s.(log := r.log)
    ensures r.log == s.log + (if s.ses.drop.dropElem.Some? && s.cfg.handlers.drop then [Dropped(ev, s.ses.drag, s.ses.drop, StatusOf(s))] else [])
                           + (if s.cfg.handlers.dragend then [DragEnd(ev, s.ses.drag, s.ses.drop, StatusOf(s))] else [])
  {
    var s1 := Fire(s, s.ses.drop.dropElem.Some? && s.cfg.handlers.drop, Dropped(ev, s.ses.drag, s.ses.drop, StatusOf(s)));
    Fire(s1, s1.cfg.handlers.dragend, DragEnd(ev, s1.ses.drag, s1.ses.drop, StatusOf(s1)))
  }

  /** dropDraggable: the release that ends the drag. */
  function DropDraggable(s: State, ev: PointerEvent, layout: Layout): (r: State)
    ensures !AcceptsRelease(ev) ==> r == s
    ensures r.cfg == s.cfg && r.timers == s.timers && r.expired == s.expired && s.log <= r.log
  {
    if !AcceptsRelease(ev) then s
    else DropCallbacks(Teardown(OverDropEffect(ResolveDrop(RecordEnd(s, ev), layout), -1)), ev)
  }

  /** An accepted release records the end point (when readable), resolves the
      target (at the end point when monitoring is off, else the last move's),
      removes the listeners and the proxy, and only then invokes ondrop (when a
      target was resolved) and ondragend, with the final records: both see the
      drag inactive, the listener slots empty and the proxy out of the body. */
  lemma ReleaseOutcome(s: State, ev: PointerEvent, layout: Layout)
    requires AcceptsRelease(ev)
    ensures var r := DropDraggable(s, ev, layout);
      var end := if ReadPoint(ev).Some? then Point(ev.x, ev.y) else Point(s.ses.drop.endX, s.ses.drop.endY);
      r.ses == s.ses.(ltCnl := true, dragstartevt := false, dropActive := false,
                      drop := Drop(if s.cfg.monitorOverDrop then s.ses.drop.dropElem
                                   else DropTarget(s.cfg.dropItems, layout, Some(end)), end.x, end.y))
      && r.page == s.page.(listeners := None, proxyInBody := false, removed := s.page.removed + 1,
                           detached := s.page.detached + 1, borders := r.page.borders)
      && r.cfg == s.cfg && r.timers == s.timers && r.expired == s.expired
      && r.log == s.log + (if r.ses.drop.dropElem.Some? && s.cfg.handlers.drop then [Dropped(ev, s.ses.drag, r.ses.drop, TornDown)] else [])
                        + (if s.cfg.handlers.dragend then [DragEnd(ev, s.ses.drag, r.ses.drop, TornDown)] else [])
  {
  }

  /** After an accepted release no droppable item shows the hover border. */
  lemma ReleaseClearsFeedback(s: State, ev: PointerEvent, layout: Layout)
    requires AcceptsRelease(ev)
    ensures var r := DropDraggable(s, ev, layout);
      forall k :: 0 <= k < |s.cfg.dropItems| ==>
        s.cfg.dropItems[k] in r.page.borders && r.page.borders[s.cfg.dropItems[k]] == s.cfg.offEffect
  {
    var s3 := ResolveDrop(RecordEnd(s, ev), layout);
    AllOff(s3.page.borders, s.cfg.dropItems, s.cfg.onEffect, s.cfg.offEffect);
  }

  function Release(s: State, ev: PointerEvent, layout: Layout): (r: State)
    ensures !Delivered(s, ev) ==> r == s
  {
    if Delivered(s, ev) then DropDraggable(s, ev, layout) else s
  }

  /** Timer k runs: it is a no-op unless it is armed and has not run yet. It
      calls touchLongpress only if ltCnl is still false, and touchLongpress
      invokes onlongtouch only for a touch press, passing ltCnl (then false). */
  function TimerExpire(s: State, k: nat): (r: State)
    ensures r == s.(expired := r.expired, log := r.log)
    ensures k < |s.timers| && k !in s.expired ==> r.expired == s.expired + {k}
    ensures !(k < |s.timers| && k !in s.expired) ==> r == s
    ensures k < |s.timers| && k !in s.expired ==>
      r.log == s.log + (if !s.ses.ltCnl && s.timers[k].event.kind == Touch && s.cfg.handlers.longtouch
                        then [LongTouch(s.timers[k].event, false)] else [])
  {
    if k >= |s.timers| || k in s.expired then s
    else
      var s1 := s.(expired := s.expired + {k});
      if !s1.ses.ltCnl then
        var e := s1.timers[k].event;
        Fire(s1, e.kind == Touch && s1.cfg.handlers.longtouch, LongTouch(e, s1.ses.ltCnl))
      else s1
  }

  // ---------------------------------------------------------------------------
  // Runs of inputs

  datatype Input = Down(ev: PointerEvent) | MoveTo(ev: PointerEvent) | Up(ev: PointerEvent) | Expiry(k: nat)

  /** One input. No handler changes the settings, forgets a callback already
      invoked, disarms a timer or un-runs one. */
  function Step(s: State, i: Input, layout: Layout): (r: State)
    ensures r.cfg == s.cfg && s.log <= r.log && s.expired <= r.expired
    ensures |s.timers| <= |r.timers| && r.timers[..|s.timers|] == s.timers
  {
    match i
    case Down(ev) => Press(s, ev, layout)
    case MoveTo(ev) => Move(s, ev, layout)
    case Up(ev) => Release(s, ev, layout)
    case Expiry(k) => TimerExpire(s, k)
  }

  /** The inputs in turn. Over any run the settings stay as they are, and the
      callbacks invoked, the timers armed and the timers run only grow. */
  function Run(s: State, inputs: seq<Input>, layout: Layout): (r: State)
    decreases |inputs|
    ensures r.cfg == s.cfg && s.log <= r.log && s.expired <= r.expired
    ensures |s.timers| <= |r.timers| && r.timers[..|s.timers|] == s.timers
  {
    if inputs == [] then s
    else
      var s1 := Step(s, inputs[0], layout);
      var r := Run(s1, inputs[1..], layout);
      assert r.timers[..|s.timers|] == r.timers[..|s1.timers|][..|s.timers|];
      r
  }
}

=== FILE: registry.dfy ===
/** Registration of draggable and droppable elements: the selector resolution
    of `el`, the collection update of `incDragDropItem` and the argument
    handling of `setDraggable` / `setDroppable`. */
module Registry {
  import opened Dom

  /** One entry handed to setDraggable/setDroppable: a selector string or an
      element reference. */
  datatype Target = Selector(text: string) | Ref(elem: Element)

  /** The argument of setDraggable/setDroppable: one entry or an array of them. */
  datatype Arg = One(target: Target) | Many(targets: seq<Target>)

  datatype SelectorKind = ByClass(name: string) | ById(name: string) | Unrecognised

  /** Classification by the first character: `.` selects by class, `#` by id,
      anything else (the empty string included) is not a selector. */
  function Classify(sel: string): (r: SelectorKind)
    ensures r.ByClass? ==> sel == "." + r.name
    ensures r.ById? ==> sel == "#" + r.name
    ensures r.Unrecognised? <==> sel == [] || (sel[0] != '.' && sel[0] != '#')
  {
    if |sel| > 0 && sel[0] == '.' then ByClass(sel[1..])
    else if |sel| > 0 && sel[0] == '#' then ById(sel[1..])
    else Unrecognised
  }

  function Reversed<T>(s: seq<T>): (r: seq<T>)
    ensures |r| == |s| && forall k :: 0 <= k < |s| ==> r[k] == s[|s| - 1 - k]
  {
    if s == [] then [] else Reversed(s[1..]) + [s[0]]
  }

  lemma ReversedTwice<T>(s: seq<T>)
    ensures Reversed(Reversed(s)) == s
  {
  }

  /** An element reference, or a selector that `el` recognises. */
  predicate Recognised(t: Target)
  {
    t.Ref? || !Classify(t.text).Unrecognised?
  }

  /** The elements an entry denotes, in document order: the reference itself,
      every element of the class, or the element with the id (none when nothing
      matches). */
  function Matches(t: Target, doc: Document): seq<Element>
  {
    match t
    case Ref(e) => [e]
    case Selector(text) =>
      match Classify(text)
      case ByClass(name) => ClassList(doc, name)
      case ById(name) => if name in doc.byId then [doc.byId[name]] else []
      case Unrecognised => []
  }

  /** `el`: the elements a selector picks, in reverse document order (the
      class list is copied from its last element down), or None for an
      unrecognised selector. An id or class that matches nothing yields no
      element. */
  method El(sel: string, doc: Document) returns (r: Option<seq<Element>>)
    ensures r.None? <==> !Recognised(Selector(sel))
    ensures r.Some? ==> r.value == Reversed(Matches(Selector(sel), doc))
    ensures Classify(sel).ById? ==> r.Some? && |r.value| <= 1
  {
    match Classify(sel)
    case Unrecognised =>
      return None;
    case ById(name) =>
      if name in doc.byId {
        return Some([doc.byId[name]]);
      }
      return Some([]);
    case ByClass(name) =>
      var nl := ClassList(doc, name);
      var rl: seq<Element> := [];
      var l := |nl|;
      while l > 0
        invariant 0 <= l <= |nl|
        invariant rl == Reversed(nl[l..])
      {
        l := l - 1;
        assert nl[l..] == [nl[l]] + nl[l + 1..];
        rl := rl + [nl[l]];
      }
      assert nl[0..] == nl;
      return Some(rl);
  }

  /** `incDragDropItem`: resolves an entry and pushes its elements onto the
      collection from the last one down. Since `el` already reversed them, the
      collection gains them in document order. It reports whether an element
      was added: an unrecognised selector, or one that matches nothing, leaves
      the collection unchanged and reports false. */
  method IncDragDropItem(i: Target, col: seq<Element>, doc: Document) returns (ok: bool, col': seq<Element>)
    ensures ok == (Matches(i, doc) != [])
    ensures ok ==> Recognised(i)
    ensures col' == col + Matches(i, doc)
  {
    var e: seq<Element>;
    if i.Ref? {
      e := [i.elem];
    } else {
      var found := El(i.text, doc);
      if found.None? {
        return false, col;
      }
      e := found.value;
    }
    col' := col;
    var l := |e|;
    while l > 0
      invariant 0 <= l <= |e|
      invariant col' == col + Reversed(e[l..])
    {
      l := l - 1;
      assert e[l..] == [e[l]] + e[l + 1..];
      col' := col' + [e[l]];
    }
    assert e[0..] == e;
    ReversedTwice(Matches(i, doc));
    ok := e != [];
  }

  /** Elements appended when the entries targets[|targets|-1] down to
      targets[from] are processed in turn. */
  function Appended(targets: seq<Target>, doc: Document, from: nat): seq<Element>
    requires from <= |targets|
    decreases |targets| - from
  {
    if from == |targets| then [] else Appended(targets, doc, from + 1) + Matches(targets[from], doc)
  }

  /** The `while (l--)` of setDraggable and setDroppable over an array: each
      entry from the last down to the first goes through incDragDropItem,
      and the flag keeps the outcome of the entry processed last. */
  method IncEach(ts: seq<Target>, col: seq<Element>, flag: bool, doc: Document) returns (ok: bool, col': seq<Element>)
    ensures col' == col + Appended(ts, doc, 0)
    ensures ok == Outcome(Many(ts), flag, doc)
  {
    ok, col' := flag, col;
    var l := |ts|;
    while l > 0
      invariant 0 <= l <= |ts|
      invariant col' == col + Appended(ts, doc, l)
      invariant ok == (if l == |ts| then flag else Matches(ts[l], doc) != [])
    {
      l := l - 1;
      ok, col' := IncDragDropItem(ts[l], col', doc);
    }
  }

  /** Processing an array adds exactly the elements its entries denote: every
      element added is denoted by some entry, and every element an entry
      denotes is added. */
  lemma {:induction false} AppendedMembers(targets: seq<Target>, doc: Document, from: nat)
    requires from <= |targets|
    decreases |targets| - from
    ensures forall e :: e in Appended(targets, doc, from) <==>
      exists k :: from <= k < |targets| && e in Matches(targets[k], doc)
  {
    if from < |targets| {
      AppendedMembers(targets, doc, from + 1);
      forall e | e in Appended(targets, doc, from)
        ensures exists k :: from <= k < |targets| && e in Matches(targets[k], doc)
      {
        if e !in Matches(targets[from], doc) {
          assert e in Appended(targets, doc, from + 1);
        }
      }
    }
  }

  /** The elements a setDraggable call adds, in the order they are appended:
      one entry's matches, or the matches of an array's entries taken from the
      last entry to the first. */
  function Added(d: Arg, doc: Document): seq<Element>
  {
    match d
    case One(t) => Matches(t, doc)
    case Many(ts) => Appended(ts, doc, 0)
  }

  /** The flag setDraggable leaves: whether the entry processed last added an
      element; for an array that entry is its first; an empty array processes
      nothing and leaves the flag as it was. */
  function Outcome(d: Arg, before: bool, doc: Document): bool
  {
    match d
    case One(t) => Matches(t, doc) != []
    case Many(ts) => if ts == [] then before else Matches(ts[0], doc) != []
  }

  /** setDroppable tests only `typeof d === "object"`: a lone element
      reference is an object without a length, so its loop runs zero times
      and nothing is added. */
  function DroppableArg(d: Arg): (r: Arg)
    ensures r.One? ==> r.target.Selector?
    ensures d.Many? || d.target.Selector? ==> r == d
    ensures d.One? && d.target.Ref? ==> r == Many([])
  {
    if d.One? && d.target.Ref? then Many([]) else d
  }

  // ---------------------------------------------------------------------------
  // The source as written, where it differs from the definitions above.

  /** A value the source pushes into a collection. */
  datatype Pushed = ElementValue(e: Element) | CollectionObject | ArgumentArray

  /** What `el` does as written. */
  datatype ElOutcome = NotASelector | TypeError | Pushes(values: seq<Pushed>)

  function AsValues(s: seq<Element>): (r: seq<Pushed>)
    ensures |r| == |s| && forall k :: 0 <= k < |s| ==> r[k] == ElementValue(s[k])
  {
    if s == [] then [] else [ElementValue(s[0])] + AsValues(s[1..])
  }

  /** `el` as written: a class list is reversed only when it has a first
      element; an empty class list fails that test and is pushed itself, as a
      single value that is not an element. An id that matches nothing makes
      `nl` null, and reading `nl[0]` throws a TypeError. */
  function ElAsWritten(sel: string, doc: Document): (r: ElOutcome)
    ensures r.NotASelector? <==> Classify(sel).Unrecognised?
    ensures r.TypeError? <==> Classify(sel).ById? && Classify(sel).name !in doc.byId
    ensures r.Pushes? && Matches(Selector(sel), doc) != [] ==>
      r.values == AsValues(Reversed(Matches(Selector(sel), doc)))
    ensures r.Pushes? ==> |r.values| >= 1
  {
    match Classify(sel)
    case Unrecognised => NotASelector
    case ById(name) => if name in doc.byId then Pushes([ElementValue(doc.byId[name])]) else TypeError
    case ByClass(name) =>
      var nl := ClassList(doc, name);
      if |nl| > 0 then Pushes(AsValues(Reversed(nl))) else Pushes([CollectionObject])
  }

  /** A class selector that matches nothing: as written, `el` hands back the
      empty collection itself, so incDragDropItem reports success and the
      collection gains a value that is not an element; `El` adds nothing. */
  lemma UnmatchedClassPushesCollection(doc: Document, name: string)
    requires ClassList(doc, name) == []
    ensures ElAsWritten("." + name, doc) == Pushes([CollectionObject])
    ensures Matches(Selector("." + name), doc) == []
  {
    assert ("." + name)[1..] == name;
  }

  /** An id selector that matches nothing: as written `el` throws; `El`
      resolves it to no element. */
  lemma UnmatchedIdThrows(doc: Document, name: string)
    requires name !in doc.byId
    ensures ElAsWritten("#" + name, doc) == TypeError
    ensures Matches(Selector("#" + name), doc) == []
  {
    assert ("#" + name)[1..] == name;
  }

  /** JavaScript truthiness of an array entry: only the empty string is falsy. */
  predicate Truthy(t: Target)
  {
    t.Ref? || t.text != ""
  }

  /** What setDraggable hands to incDragDropItem, as written. */
  datatype CallArg = Entry(t: Target) | WholeArray(ts: seq<Target>)

  function Entries(ts: seq<Target>): (r: seq<CallArg>)
    ensures |r| == |ts| && forall k :: 0 <= k < |ts| ==> r[k] == Entry(ts[k])
  {
    if ts == [] then [] else [Entry(ts[0])] + Entries(ts[1..])
  }

  /** setDraggable as written: an array is walked entry by entry (from its last
      entry down) only when its first entry is truthy; otherwise the whole
      array is handed to incDragDropItem as one object. */
  function DraggableCallsAsWritten(d: Arg): (r: seq<CallArg>)
    ensures d.One? ==> r == [Entry(d.target)]
    ensures d.Many? && |d.targets| > 0 && Truthy(d.targets[0]) ==>
      |r| == |d.targets| && forall k :: 0 <= k < |r| ==> r[k] == Entry(d.targets[|d.targets| - 1 - k])
    ensures d.Many? && !(|d.targets| > 0 && Truthy(d.targets[0])) ==> r == [WholeArray(d.targets)]
  {
    match d
    case One(t) => [Entry(t)]
    case Many(ts) =>
      if |ts| > 0 && Truthy(ts[0]) then Entries(Reversed(ts)) else [WholeArray(ts)]
  }

  /** incDragDropItem as written on one argument: anything that is not a
      string is wrapped in a one-element array and pushed. Whenever it does
      not fail or throw, it pushes at least one value, though not
      necessarily an element. */
  function IncAsWritten(a: CallArg, doc: Document): (r: ElOutcome)
    ensures a.WholeArray? ==> r == Pushes([ArgumentArray])
    ensures a.Entry? && a.t.Ref? ==> r == Pushes([ElementValue(a.t.elem)])
    ensures r.Pushes? ==> |r.values| >= 1
  {
    match a
    case WholeArray(_) => Pushes([ArgumentArray])
    case Entry(Ref(e)) => Pushes([ElementValue(e)])
    case Entry(Selector(text)) => ElAsWritten(text, doc)
  }

  /** setDraggable([]) and setDraggable(["", ".a"]): as written the array itself
      lands in the draggable collection and the flag reports success, while the
      entry ".a" is never looked at. */
  lemma ArrayWithFalsyHeadPushed(rest: seq<Target>, doc: Document)
    ensures DraggableCallsAsWritten(Many([])) == [WholeArray([])]
    ensures DraggableCallsAsWritten(Many([Selector("")] + rest)) == [WholeArray([Selector("")] + rest)]
    ensures IncAsWritten(WholeArray(rest), doc) == Pushes([ArgumentArray])
  {
  }
}

=== FILE: sessions.dfy ===
/** Properties of runs of the controller: the invariant every handler keeps,
    at most one drag at a time, one ondragstart per session, the long-touch
    condition, and the scenarios the controller is built for. */
module Sessions {
  import opened Dom
  import opened HitTest
  import opened Machine

  // ---------------------------------------------------------------------------
  // The invariant

  /** Appending callbacks none of which satisfies f leaves the count of f. */
  lemma CountNone(log: seq<Callback>, extra: seq<Callback>, f: Callback -> bool)
    requires forall k :: 0 <= k < |extra| ==> !f(extra[k])
    ensures Count(log + extra, f) == Count(log, f)
  {
    CountAppend(log, extra, f);
    CountZero(extra, f);
  }

  lemma {:induction false} CountZero(extra: seq<Callback>, f: Callback -> bool)
    requires forall k :: 0 <= k < |extra| ==> !f(extra[k])
    ensures Count(extra, f) == 0
  {
    if extra != [] {
      CountZero(extra[1..], f);
    }
  }

  /** An accepted press needs no active drag, so it opens exactly one
      session: one proxy, one listener pair. */
  lemma PressValid(s: State, ev: PointerEvent, layout: Layout)
    requires Valid(s)
    ensures Valid(Press(s, ev, layout))
  {
  }

  lemma MoveValid(s: State, ev: PointerEvent, layout: Layout)
    requires Valid(s)
    ensures Valid(Move(s, ev, layout))
  {
    if Delivered(s, ev) {
      MoveOutcome(s, ev, layout);
      var r := TrackDrag(s, ev, layout);
      var started := if !s.ses.dragstartevt && s.cfg.handlers.dragstart then [DragStart(ev, s.ses.drag)] else [];
      var moved := if s.cfg.handlers.dragmove then [DragMove(ev, r.ses.drag, r.ses.drop)] else [];
      assert r.log == s.log + started + moved;
      CountAppend(s.log + started, moved, IsDragStart);
      CountAppend(s.log, started, IsDragStart);
      CountNone(s.log + started, moved, IsDragEnd);
      CountNone(s.log, started, IsDragEnd);
      CountNone(s.log + started, moved, IsDropped);
      CountNone(s.log, started, IsDropped);
      if started != [] {
        assert [DragStart(ev, s.ses.drag)][1..] == [];
      }
    }
  }

  lemma ReleaseValid(s: State, ev: PointerEvent, layout: Layout)
    requires Valid(s)
    ensures Valid(Release(s, ev, layout))
  {
    if Delivered(s, ev) && AcceptsRelease(ev) {
      ReleaseOutcome(s, ev, layout);
      var r := DropDraggable(s, ev, layout);
      var dropped := if r.ses.drop.dropElem.Some? && s.cfg.handlers.drop then [Dropped(ev, s.ses.drag, r.ses.drop, TornDown)] else [];
      var ended := if s.cfg.handlers.dragend then [DragEnd(ev, s.ses.drag, r.ses.drop, TornDown)] else [];
      assert r.log == s.log + dropped + ended;
      CountNone(s.log + dropped, ended, IsDragStart);
      CountNone(s.log, dropped, IsDragStart);
      CountAppend(s.log + dropped, ended, IsDragEnd);
      CountNone(s.log, dropped, IsDragEnd);
      CountNone(s.log + dropped, ended, IsDropped);
      CountAppend(s.log, dropped, IsDropped);
      if ended != [] {
        assert [DragEnd(ev, s.ses.drag, r.ses.drop, TornDown)][1..] == [];
      }
      if dropped != [] {
        assert [Dropped(ev, s.ses.drag, r.ses.drop, TornDown)][1..] == [];
      }
    }
  }

  lemma ExpireValid(s: State, k: nat)
    requires Valid(s)
    ensures Valid(TimerExpire(s, k))
  {
    var r := TimerExpire(s, k);
    if k < |s.timers| && k !in s.expired {
      var extra := r.log[|s.log|..];
      assert r.log == s.log + extra;
      CountNone(s.log, extra, IsDragStart);
      CountNone(s.log, extra, IsDragEnd);
      CountNone(s.log, extra, IsDropped);
    }
  }

  lemma StepValid(s: State, i: Input, layout: Layout)
    requires Valid(s)
    ensures Valid(Step(s, i, layout))
  {
    match i
    case Down(ev) => PressValid(s, ev, layout);
    case MoveTo(ev) => MoveValid(s, ev, layout);
    case Up(ev) => ReleaseValid(s, ev, layout);
    case Expiry(k) => ExpireValid(s, k);
  }

  /** Every run of inputs keeps the invariant: at most one drag session is
      active, its listeners and proxy are the only ones not yet removed, and
      the callbacks fired stay within the sessions opened and closed. */
  lemma {:induction false} RunValid(s: State, inputs: seq<Input>, layout: Layout)
    requires Valid(s)
    ensures Valid(Run(s, inputs, layout))
    decreases |inputs|
  {
    if inputs != [] {
      StepValid(s, inputs[0], layout);
      RunValid(Step(s, inputs[0], layout), inputs[1..], layout);
    }
  }

  /** From the constructed controller: ondragstart fired at most once per
      proxy created, ondragend and ondrop at most once per proxy removed, and
      every proxy created but the active session's has been removed again
      together with its listeners; and every ondrop and ondragend ran with the
      drag inactive, the listener slots empty and the proxy out of the body. */
  lemma CallbacksPerSession(inputs: seq<Input>, layout: Layout)
    ensures var r := Run(Initial(), inputs, layout);
      Count(r.log, IsDragStart) <= r.page.created
      && Count(r.log, IsDragEnd) <= r.page.removed && Count(r.log, IsDropped) <= r.page.removed
      && r.page.created == r.page.removed + (if r.ses.dropActive then 1 else 0)
      && r.page.attached == r.page.detached + (if r.ses.dropActive then 1 else 0)
      && AllSawTeardown(r.log)
  {
    RunValid(Initial(), inputs, layout);
  }

  // ---------------------------------------------------------------------------
  // One drag at a time

  predicate AllPresses(inputs: seq<Input>)
  {
    forall k :: 0 <= k < |inputs| ==> inputs[k].Down?
  }

  /** Any burst of presses with no release in between opens at most one
      session; when a drag is already active the burst changes nothing. */
  lemma {:induction false} RepeatedPresses(s: State, inputs: seq<Input>, layout: Layout)
    requires Valid(s) && AllPresses(inputs)
    ensures var r := Run(s, inputs, layout);
      r.page.created <= s.page.created + 1 && r.page.attached <= s.page.attached + 1
    ensures s.ses.dropActive ==> Run(s, inputs, layout) == s
    decreases |inputs|
  {
    if inputs != [] {
      var s1 := Step(s, inputs[0], layout);
      StepValid(s, inputs[0], layout);
      assert AllPresses(inputs[1..]);
      if s.ses.dropActive {
        assert s1 == s;
        RepeatedPresses(s1, inputs[1..], layout);
      } else {
        RepeatedPresses(s1, inputs[1..], layout);
        if s1.ses.dropActive {
          assert Run(s1, inputs[1..], layout) == s1;
        }
      }
    }
  }

  // ---------------------------------------------------------------------------
  // Inputs that belong to one session

  predicate NoPress(inputs: seq<Input>)
  {
    forall k :: 0 <= k < |inputs| ==> !inputs[k].Down?
  }

  /** Without a press, the settings and the armed timers stay as they are, and
      a timer that neither ran nor is expired in the run stays pending. */
  lemma {:induction false} QuietKeepsTimers(s: State, inputs: seq<Input>, layout: Layout, n: nat)
    requires NoPress(inputs)
    ensures var r := Run(s, inputs, layout);
      r.cfg == s.cfg && r.timers == s.timers
      && (n !in s.expired && (forall k :: 0 <= k < |inputs| ==> inputs[k] != Expiry(n)) ==> n !in r.expired)
    decreases |inputs|
  {
    if inputs != [] {
      var s1 := Step(s, inputs[0], layout);
      assert s1.cfg == s.cfg && s1.timers == s.timers && (inputs[0] != Expiry(n) ==> (n in s1.expired <==> n in s.expired)) by {
        match inputs[0]
        case MoveTo(ev) => {}
        case Up(ev) => {}
        case Expiry(k) => {}
      }
      assert NoPress(inputs[1..]);
      QuietKeepsTimers(s1, inputs[1..], layout, n);
    }
  }

  /** An input that cancels the long touch of a touch press: any touch move or
      touch end reaches the document listeners set for touch. */
  predicate Cancels(i: Input)
  {
    (i.MoveTo? || i.Up?) && i.ev.kind == Touch
  }

  /** Once cancelled, the long touch stays cancelled until the next press. */
  lemma {:induction false} StaysCancelled(s: State, inputs: seq<Input>, layout: Layout)
    requires NoPress(inputs) && s.ses.ltCnl
    ensures Run(s, inputs, layout).ses.ltCnl
    decreases |inputs|
  {
    if inputs != [] {
      var s1 := Step(s, inputs[0], layout);
      assert s1.ses.ltCnl by {
        match inputs[0]
        case MoveTo(ev) => {}
        case Up(ev) => {}
        case Expiry(k) => {}
      }
      assert NoPress(inputs[1..]);
      StaysCancelled(s1, inputs[1..], layout);
    }
  }

  /** While the touch listeners are attached and the long touch is pending,
      it ends up cancelled exactly when some touch move or touch end arrives;
      mouse input does not reach the touch listeners. */
  lemma {:induction false} CancelledIff(s: State, inputs: seq<Input>, layout: Layout)
    requires NoPress(inputs) && !s.ses.ltCnl && s.page.listeners == Some(Touch)
    ensures Run(s, inputs, layout).ses.ltCnl <==> exists k :: 0 <= k < |inputs| && Cancels(inputs[k])
    decreases |inputs|
  {
    if inputs != [] {
      var s1 := Step(s, inputs[0], layout);
      assert NoPress(inputs[1..]);
      if Cancels(inputs[0]) {
        assert s1.ses.ltCnl by {
          match inputs[0]
          case MoveTo(ev) => {}
          case Up(ev) => {}
        }
        StaysCancelled(s1, inputs[1..], layout);
      } else {
        assert s1.ses.ltCnl == s.ses.ltCnl && s1.page.listeners == s.page.listeners by {
          match inputs[0]
          case MoveTo(ev) => {}
          case Up(ev) => {}
          case Expiry(k) => {}
        }
        CancelledIff(s1, inputs[1..], layout);
        if exists k :: 0 <= k < |inputs| && Cancels(inputs[k]) {
          var k :| 0 <= k < |inputs| && Cancels(inputs[k]);
          assert k > 0 && Cancels(inputs[1..][k - 1]);
        }
        if exists k :: 0 <= k < |inputs[1..]| && Cancels(inputs[1..][k]) {
          var k :| 0 <= k < |inputs[1..]| && Cancels(inputs[1..][k]);
          assert Cancels(inputs[k + 1]);
        }
      }
    }
  }

  /** The long touch: after an accepted touch press, its timer invokes
      onlongtouch (with the press event and `false`) exactly when no touch move
      and no touch end arrived before it expired. */
  lemma LongTouchIff(s: State, ev: PointerEvent, inputs: seq<Input>, layout: Layout)
    requires Valid(s) && AcceptsPress(s, ev) && ev.kind == Touch && s.cfg.handlers.longtouch
    requires NoPress(inputs) && forall k :: 0 <= k < |inputs| ==> inputs[k] != Expiry(|s.timers|)
    ensures var before := Run(Press(s, ev, layout), inputs, layout);
      (TimerExpire(before, |s.timers|).log == before.log + [LongTouch(ev, false)]
       <==> forall k :: 0 <= k < |inputs| ==> !Cancels(inputs[k]))
  {
    var s1 := Press(s, ev, layout);
    var n := |s.timers|;
    assert n !in s1.expired;
    QuietKeepsTimers(s1, inputs, layout, n);
    CancelledIff(s1, inputs, layout);
  }

  /** A mouse press never leads to onlongtouch, whatever happens before its
      timer expires, later presses included: the timer carries the mouse
      event, and touchLongpress acts only on a touch event. */
  lemma MousePressNoLongTouch(s: State, ev: PointerEvent, inputs: seq<Input>, layout: Layout)
    requires AcceptsPress(s, ev) && ev.kind == Mouse
    ensures var before := Run(Press(s, ev, layout), inputs, layout);
      TimerExpire(before, |s.timers|).log == before.log
  {
    var s1 := Press(s, ev, layout);
    var before := Run(s1, inputs, layout);
    assert before.timers[..|s1.timers|] == s1.timers;
    assert before.timers[|s.timers|] == s1.timers[|s.timers|];
  }

  /** A move that reaches the listeners set for its kind of input. */
  predicate MoveFor(i: Input, listeners: Option<Kind>)
  {
    i.MoveTo? && listeners == Some(i.ev.kind)
  }

  lemma SomeMoveFor(inputs: seq<Input>, listeners: Option<Kind>)
    requires inputs != []
    ensures (exists k :: 0 <= k < |inputs| && MoveFor(inputs[k], listeners))
        <==> MoveFor(inputs[0], listeners) || exists k :: 0 <= k < |inputs[1..]| && MoveFor(inputs[1..][k], listeners)
  {
    if exists k :: 0 <= k < |inputs| && MoveFor(inputs[k], listeners) {
      var k :| 0 <= k < |inputs| && MoveFor(inputs[k], listeners);
      if k > 0 {
        assert MoveFor(inputs[1..][k - 1], listeners);
      }
    }
    if exists k :: 0 <= k < |inputs[1..]| && MoveFor(inputs[1..][k], listeners) {
      var k :| 0 <= k < |inputs[1..]| && MoveFor(inputs[1..][k], listeners);
      assert MoveFor(inputs[k + 1], listeners);
    }
  }

  /** One step inside a session: a delivered move invokes ondragstart only if
      the drag had not started, and leaves it started; a timer adds no
      ondragstart; neither touches the listeners. */
  lemma SessionStep(s: State, i: Input, layout: Layout)
    requires i.MoveTo? || i.Expiry?
    ensures var r := Step(s, i, layout);
      r.page.listeners == s.page.listeners && r.cfg == s.cfg
      && (MoveFor(i, s.page.listeners) ==> r.ses.dragstartevt)
      && (!MoveFor(i, s.page.listeners) ==> r.ses.dragstartevt == s.ses.dragstartevt)
      && Count(r.log, IsDragStart) == Count(s.log, IsDragStart)
           + (if MoveFor(i, s.page.listeners) && !s.ses.dragstartevt && s.cfg.handlers.dragstart then 1 else 0)
  {
    var r := Step(s, i, layout);
    if MoveFor(i, s.page.listeners) {
      var ev := i.ev;
      MoveOutcome(s, ev, layout);
      var started := if !s.ses.dragstartevt && s.cfg.handlers.dragstart then [DragStart(ev, s.ses.drag)] else [];
      var moved := if s.cfg.handlers.dragmove then [DragMove(ev, r.ses.drag, r.ses.drop)] else [];
      assert r.log == s.log + started + moved;
      CountNone(s.log + started, moved, IsDragStart);
      CountAppend(s.log, started, IsDragStart);
      if started != [] {
        assert [DragStart(ev, s.ses.drag)][1..] == [];
      }
    } else if i.Expiry? {
      assert r.log == s.log + r.log[|s.log|..];
      CountNone(s.log, r.log[|s.log|..], IsDragStart);
    }
  }

  /** ondragstart fires once per session: within a session (moves and timers
      only) the first move that reaches the listeners fires it when it is set
      and the drag had not started, and no later move fires it again. */
  lemma {:induction false} DragStartOnce(s: State, inputs: seq<Input>, layout: Layout)
    requires forall k :: 0 <= k < |inputs| ==> inputs[k].MoveTo? || inputs[k].Expiry?
    decreases |inputs|
    ensures var r := Run(s, inputs, layout);
      Count(r.log, IsDragStart) == Count(s.log, IsDragStart)
        + (if !s.ses.dragstartevt && s.cfg.handlers.dragstart
              && exists k :: 0 <= k < |inputs| && MoveFor(inputs[k], s.page.listeners) then 1 else 0)
    ensures Run(s, inputs, layout).page.listeners == s.page.listeners
  {
    if inputs != [] {
      var s1 := Step(s, inputs[0], layout);
      var rest := inputs[1..];
      assert forall k :: 0 <= k < |rest| ==> rest[k].MoveTo? || rest[k].Expiry?;
      SessionStep(s, inputs[0], layout);
      DragStartOnce(s1, rest, layout);
      SomeMoveFor(inputs, s.page.listeners);
    }
  }

  // ---------------------------------------------------------------------------
  // Scenarios

  /** A primary-button mouse event at (x, y) on element e. */
  function MouseAt(x: int, y: int, e: Element): PointerEvent
  {
    PointerEvent(Mouse, 0, x, y, e)
  }

  /** Draggable d at (0,0) of size 50x50 and droppable z at (40,40) of size
      100x100: a press at (10,10) and a move to (60,60) put the proxy at
      (50,50), d's origin moved by the pointer's displacement; a release at
      (60,60) resolves z, fires ondrop with it, then ondragend. */
  lemma DropOnTarget(s: State, d: Element, z: Element, layout: Layout)
    requires Valid(s) && !s.ses.dropActive
    requires s.cfg.dropItems == [z] && s.cfg.dropItemsSet && s.cfg.handlers.drop && s.cfg.handlers.dragend
    requires layout(d) == Rect(0, 0, 50, 50) && layout(z) == Rect(40, 40, 100, 100)
    ensures var s1 := Press(s, MouseAt(10, 10, d), layout);
      var s2 := Move(s1, MouseAt(60, 60, d), layout);
      var s3 := Release(s2, MouseAt(60, 60, d), layout);
      s2.page.proxy == Overlay(Block, Some(50), Some(50))
      && s3.ses.drop == Drop(Some(z), 60, 60)
      && s3.log == s2.log + [Dropped(MouseAt(60, 60, d), s2.ses.drag, s3.ses.drop, TornDown), DragEnd(MouseAt(60, 60, d), s2.ses.drag, s3.ses.drop, TornDown)]
      && !s3.ses.dropActive && !s3.page.proxyInBody && s3.page.listeners.None?
  {
    var p := Some(Point(60, 60));
    assert Hits([z], layout, p, 0);
    var s1 := Press(s, MouseAt(10, 10, d), layout);
    var s2 := Move(s1, MouseAt(60, 60, d), layout);
    assert s2.ses.drag == s1.ses.drag;
    if s.cfg.monitorOverDrop {
      assert s2.ses.drop.dropElem == Some(z);
    }
  }

  /** The same drag released at (200,200), outside every droppable item: no
      item is resolved, ondrop is not invoked and ondragend still is. */
  lemma DropOutside(s: State, d: Element, z: Element, layout: Layout)
    requires Valid(s) && !s.ses.dropActive
    requires s.cfg.dropItems == [z] && s.cfg.dropItemsSet && s.cfg.handlers.drop && s.cfg.handlers.dragend
    requires layout(d) == Rect(0, 0, 50, 50) && layout(z) == Rect(40, 40, 100, 100)
    ensures var s1 := Press(s, MouseAt(10, 10, d), layout);
      var s2 := Move(s1, MouseAt(200, 200, d), layout);
      var s3 := Release(s2, MouseAt(200, 200, d), layout);
      s3.ses.drop == Drop(None, 200, 200)
      && s3.log == s2.log + [DragEnd(MouseAt(200, 200, d), s2.ses.drag, s3.ses.drop, TornDown)]
  {
    var p := Some(Point(200, 200));
    assert !Hits([z], layout, p, 0);
  }

  /** Kept as written: a timer is never cleared, and it only tests ltCnl when
      it runs. A touch press that ends before 500 ms, followed by a second press
      that has not moved yet, lets the first press's timer invoke onlongtouch
      with the first press's event. */
  lemma StaleTimerFires(s: State, a: PointerEvent, u: PointerEvent, b: PointerEvent, layout: Layout)
    requires Valid(s) && !s.ses.dropActive && s.cfg.handlers.longtouch
    requires a.kind == Touch && u.kind == Touch && b.kind == Touch
    ensures var before := Press(Release(Press(s, a, layout), u, layout), b, layout);
      before.ses.dropActive && before.ses.drag.dragElem == Some(b.target)
      && TimerExpire(before, |s.timers|).log == before.log + [LongTouch(a, false)]
  {
    var s1 := Press(s, a, layout);
    var s2 := Release(s1, u, layout);
    var s3 := Press(s2, b, layout);
    assert s2.timers == s1.timers && s2.expired == s.expired;
    assert s3.timers[|s.timers|] == Timer(a, LongPressDelay);
  }

  /** Kept as written: the drop record is not reset at a press and, with
      monitoring on, a release does not look the target up. A click that
      does not move therefore reports the previous drag's target to ondrop. */
  lemma StaleDropReported(s: State, press: PointerEvent, release: PointerEvent, layout: Layout)
    requires Valid(s) && !s.ses.dropActive && s.cfg.monitorOverDrop && s.cfg.handlers.drop
    requires s.ses.drop.dropElem.Some?
    requires press.kind == Mouse && press.button == 0 && release.kind == Mouse && release.button == 0
    ensures var s1 := Press(s, press, layout);
      var s2 := Release(s1, release, layout);
      s2.ses.drop.dropElem == s.ses.drop.dropElem
      && s2.log[|s.log|] == Dropped(release, s1.ses.drag, s2.ses.drop, TornDown)
  {
  }
}

=== FILE: styles.dfy ===
/** The pure part of applyStyles: turning a hyphenated CSS property name into
    the camel-cased name of the style object, and replacing an empty computed
    value. */
module Styles {

  /** The properties applyStyles copies from the source element to the proxy. */
  const CopiedProperties: seq<string> := ["width", "height", "border", "font-size", "color", "border-color",
                                          "padding", "vertical-align", "margin", "white-space", "list-style",
                                          "line-height"]

  /** toUpperCase / toLowerCase on ASCII letters; other characters are kept. */
  function Upper(c: char): char
  {
    if 'a' <= c <= 'z' then (c as int - 32) as char else c
  }

  function Lower(c: char): char
  {
    if 'A' <= c <= 'Z' then (c as int + 32) as char else c
  }

  predicate IsUpper(c: char)
  {
    'A' <= c <= 'Z'
  }

  /** The text before the first hyphen: the first part of `split("-")`. */
  function BeforeHyphen(s: string): (r: string)
    ensures |r| <= |s| && r == s[..|r|] && '-' !in r
    ensures |r| < |s| ==> s[|r|] == '-'
  {
    if s == [] || s[0] == '-' then [] else [s[0]] + BeforeHyphen(s[1..])
  }

  /** First character upper-cased (`charAt(0).toUpperCase()`), rest unchanged. */
  function Capitalised(w: string): string
  {
    if w == [] then [] else [Upper(w[0])] + w[1..]
  }

  /** applyStyles' name conversion: a name with a hyphen becomes its first part
      followed by its second part with an upper-case initial (parts after a
      second hyphen are dropped, as only `cN[0]` and `cN[1]` are read); a name
      without a hyphen is used as it is. */
  function StyleName(prop: string): (name: string)
    ensures '-' !in prop ==> name == prop
  {
    if '-' !in prop then prop
    else
      var head := BeforeHyphen(prop);
      assert prop[..|prop|] == prop;
      head + Capitalised(BeforeHyphen(prop[|head| + 1..]))
  }

  /** The value applyStyles writes: an empty computed value becomes "none",
      any other value is copied unchanged. */
  function StyleValue(v: string): (r: string)
    ensures r != ""
    ensures v != "" ==> r == v
    ensures v == "" ==> r == "none"
  {
    if v == "" then "none" else v
  }

  lemma {:induction false} BeforeHyphenOfPair(a: string, b: string)
    requires '-' !in a
    ensures BeforeHyphen(a + "-" + b) == a
  {
    if a != [] {
      assert (a + "-" + b)[1..] == a[1..] + "-" + b;
      BeforeHyphenOfPair(a[1..], b);
    }
  }

  lemma {:induction false} BeforeHyphenWhole(s: string)
    requires '-' !in s
    ensures BeforeHyphen(s) == s
  {
    if s != [] {
      BeforeHyphenWhole(s[1..]);
    }
  }

  /** A name of two hyphen-free parts converts to the first part followed by
      the capitalised second part: "font-size" becomes "fontSize". */
  lemma {:induction false} StyleNameOfPair(a: string, b: string)
    requires '-' !in a && '-' !in b
    ensures StyleName(a + "-" + b) == a + Capitalised(b)
  {
    var prop := a + "-" + b;
    assert prop[|a|] == '-';
    BeforeHyphenOfPair(a, b);
    assert prop[|a| + 1..] == b;
    BeforeHyphenWhole(b);
  }

  /** The reverse convention: every upper-case letter becomes a hyphen and its
      lower-case form. */
  function KebabName(name: string): (r: string)
    ensures (forall k :: 0 <= k < |name| ==> !IsUpper(name[k])) ==> r == name
  {
    if name == [] then []
    else (if IsUpper(name[0]) then "-" + [Lower(name[0])] else [name[0]]) + KebabName(name[1..])
  }

  lemma {:induction false} KebabAppend(x: string, y: string)
    ensures KebabName(x + y) == KebabName(x) + KebabName(y)
  {
    if x == [] {
      assert x + y == y;
    } else {
      assert (x + y)[0] == x[0] && (x + y)[1..] == x[1..] + y;
      KebabAppend(x[1..], y);
    }
  }

  /** A word of the hyphenated convention: no hyphen, no upper-case letter. */
  predicate LowerWord(w: string)
  {
    '-' !in w && forall k :: 0 <= k < |w| ==> !IsUpper(w[k])
  }

  /** The conversion loses nothing for names made of two lower-case words:
      reading the camel-cased name back in the hyphenated convention gives
      the original property name. */
  lemma {:induction false} StyleNameRoundTrip(a: string, b: string)
    requires LowerWord(a) && LowerWord(b) && b != [] && 'a' <= b[0] <= 'z'
    ensures KebabName(StyleName(a + "-" + b)) == a + "-" + b
  {
    StyleNameOfPair(a, b);
    KebabAppend(a, Capitalised(b));
    KebabOfCapitalised(b);
    assert KebabName(a) == a;
    assert a + ("-" + b) == a + "-" + b;
  }

  lemma {:induction false} KebabOfCapitalised(b: string)
    requires LowerWord(b) && b != [] && 'a' <= b[0] <= 'z'
    ensures KebabName(Capitalised(b)) == "-" + b
  {
    var u := Upper(b[0]);
    var rest := b[1..];
    assert IsUpper(u) && Lower(u) == b[0] by {
      assert u as int == b[0] as int - 32;
    }
    KebabAppend([u], rest);
    assert [u][1..] == [];
    assert KebabName([u]) == "-" + [b[0]];
    assert forall k :: 0 <= k < |rest| ==> !IsUpper(rest[k]) by {
      forall k | 0 <= k < |rest| ensures !IsUpper(rest[k]) { assert rest[k] == b[k + 1]; }
    }
    assert KebabName(rest) == rest;
    assert Capitalised(b) == [u] + rest;
    assert KebabName(Capitalised(b)) == ("-" + [b[0]]) + rest;
    assert "-" + b == ("-" + [b[0]]) + rest;
  }

  lemma SingleWordRoundTrip(w: string)
    requires LowerWord(w)
    ensures KebabName(StyleName(w)) == w
  {
  }

  lemma PairRoundTrip(a: string, b: string, prop: string)
    requires LowerWord(a) && LowerWord(b) && b != [] && 'a' <= b[0] <= 'z'
    requires prop == a + "-" + b
    ensures KebabName(StyleName(prop)) == prop
  {
    StyleNameRoundTrip(a, b);
  }

  /** Every property applyStyles copies is one lower-case word or two joined by
      a hyphen, so its style name converts back to the property. */
  lemma CopiedNamesRoundTrip()
    ensures forall k :: 0 <= k < |CopiedProperties| ==>
      KebabName(StyleName(CopiedProperties[k])) == CopiedProperties[k]
  {
    forall k | 0 <= k < |CopiedProperties|
      ensures KebabName(StyleName(CopiedProperties[k])) == CopiedProperties[k]
    {
      CopiedRoundTrip(k);
    }
  }

  /** The twelve properties are taken four at a time, so that each proof
      evaluates only a few of the literal names. */
  lemma CopiedRoundTrip(k: nat)
    requires k < |CopiedProperties|
    ensures KebabName(StyleName(CopiedProperties[k])) == CopiedProperties[k]
  {
    if k < 4 {
      FirstCopiedRoundTrip(k);
    } else if k < 8 {
      MiddleCopiedRoundTrip(k);
    } else {
      LastCopiedRoundTrip(k);
    }
  }

  lemma FirstCopiedRoundTrip(k: nat)
    requires k < 4
    ensures KebabName(StyleName(CopiedProperties[k])) == CopiedProperties[k]
  {
    var p := CopiedProperties[k];
    if k == 3 {
      PairRoundTrip("font", "size", p);
    } else {
      SingleWordRoundTrip(p);
    }
  }

  lemma MiddleCopiedRoundTrip(k: nat)
    requires 4 <= k < 8
    ensures KebabName(StyleName(CopiedProperties[k])) == CopiedProperties[k]
  {
    var p := CopiedProperties[k];
    if k == 5 {
      PairRoundTrip("border", "color", p);
    } else if k == 7 {
      PairRoundTrip("vertical", "align", p);
    } else {
      SingleWordRoundTrip(p);
    }
  }

  lemma LastCopiedRoundTrip(k: nat)
    requires 8 <= k < |CopiedProperties|
    ensures KebabName(StyleName(CopiedProperties[k])) == CopiedProperties[k]
  {
    var p := CopiedProperties[k];
    if k == 9 {
      PairRoundTrip("white", "space", p);
    } else if k == 10 {
      PairRoundTrip("list", "style", p);
    } else if k == 11 {
      PairRoundTrip("line", "height", p);
    } else {
      SingleWordRoundTrip(p);
    }
  }
}
